=== FILE: README.md ===
# Recruino matching engine and client state, in Dafny

This project models the core of the Recruino recruitment tool. It has three parts.

**The backend resume-matching engine.** Text preprocessing is lower-casing, tokenizing, stop-word removal and stemming. Built on it are:
- skill extraction;
- a skill-match percentage;
- a TF-IDF text similarity;
- a regular-expression experience estimate;
- the rounded composite score;
- e-mail and name heuristics;
- a legacy Jaccard score.

**The decision logic around the engine.** The upload handler decides which submissions are rejected and what candidate record is stored. The upload middleware has a file filter and size limits.

**The pure client logic.** This covers:
- the job form's comma-separated skills parser;
- the reducers of the jobs, candidates and authentication slices, including the browser storage the authentication slice writes;
- the dashboard figures.

Each module follows one source file or one concern:

| module | file | models |
|---|---|---|
| `Common` | common.dfy | `Option`, `Result`, order-keeping `Filter`, counting, `Math.round`, percentages |
| `Text` | text.dfy | white space and `trim`, ASCII lower-casing, `split`/`join`, substring search, character runs |
| `Nlp` | nlp.dfy | the text pipeline, `extractSkills`, the legacy Jaccard score |
| `Experience` | experience.dfy | the experience regular expression and score |
| `Contact` | contact.dfy | `extractEmail`, `extractName` |
| `Scoring` | scoring.dfy | text similarity, skill match, composite |
| `Intake` | intake.dfy | `processResume` |
| `Upload` | upload.dfy | `path.extname`, `fileFilter`, the limits |
| `SkillsField` | skills_field.dfy | the skills parser of the job form |
| `Redux` | redux.dfy | JSON values, truthiness, `===`, rejection messages, removal by `_id` |
| `JobSlice`, `CandidateSlice`, `AuthSlice` | job_slice.dfy, candidate_slice.dfy, auth_slice.dfy | the three reducers |
| `Dashboard` | dashboard.dfy | the dashboard metrics and badge colours |

## How the model is built

**Third-party library functions are parameters.** The word tokenizer, the stop-word list, the Porter stemmer and the TF-IDF term lists all come from libraries. They are function-valued fields of a `Pipeline`.

The model assumes two things about them, and states each where it is used:
- TF-IDF weights are never negative (the `Weights` subset type);
- the tokenizer finds no words in the empty text (`EmptyHasNoWords`).

**Regular expressions have a reference meaning and a scanner.** Both the e-mail pattern and the experience pattern are given two ways:
- a reference meaning, which says where the pattern matches (`EmailAt`, `MatchesAt`);
- the match a backtracking engine reports: the leftmost start, and the longest match at that start (`FirstEmail`, `FirstMatch`).

An explicit scanner is then proved to find exactly that match.

**JSON values are a datatype.** Client payloads are `Json`, which includes `undefined` for a missing property. JavaScript truthiness, `?.` property access and `===` are written out. Two objects decoded from separate responses are never identical.

**Reducers are total functions on immutable records.** Where an Immer reducer would throw, the store keeps its previous state, and the model returns the state unchanged. A reducer throws when it reads a property of `null` or `undefined`. That happens for a nullish payload, and for a nullish entry of the job or candidate list once `map` or `filter` visits it. On an empty list the callback never runs, so nothing is read and nothing throws. The dashboard's render reads `matchScore` of every candidate and `_id` of every job, so a nullish entry of either list makes it throw as well; the model then has no figures.

**JavaScript's NaN is `None` where it can arise.** The text similarity looks terms up in a plain object `{}`, which inherits `constructor`, `toString` and the other `Object.prototype` properties. A job term with such a name that the resume lacks reads a function, and the product with a weight is NaN. The similarity and the composite score are then `Option<int>`, with `None` for NaN.

**The code is followed where the design description differs from it:**
- `extractSkills` returns its skills in the order of their first occurrence in the job's list. That is the insertion order of a JavaScript `Set`, and `ExtractSkills` states it.
- The composite score is not clamped. It lies in 0..100 because its three parts do, and `Composite` states it under that condition.

**Some properties come out of the model, not from any stated requirement:**
- The upload handler's "Failed to extract name or email" rejection can never happen: both fallbacks always yield a non-empty string (`Intake.ProcessResume`).
- A job description containing the word "constructor", scored against a resume without it, makes the match score NaN. The candidate record then fails the schema's number cast and is not stored (`Scoring.ConstructorTermIsNaN`, `Intake.ProcessResume`).
- Updating a job while the job list is empty marks the operation succeeded even when the response has no `data` (`JobSlice.UpdateOnEmptyList`). A `null` entry in the list makes every delete throw, so nothing is removed (`JobSlice.NullishJobBlocksDelete`).
- The file filter rejects the `application/msword` MIME type of legacy `.doc` files, because that type contains neither "pdf" nor "doc" (`Upload.LegacyWordMimeTypeRejected`).
- A login or register response without a refresh token leaves an older stored refresh token in place. The state then says `null`, but a reload restores the old token (`AuthSlice.StaleRefreshTokenSurvivesReload`).
- A response without a token stores the string "undefined", and a reload takes that string for a token (`AuthSlice.MissingTokenStoredAsUndefined`).

## Model

| member | source | states |
|---|---|---|
| Common.Round | backend/utils/scoring.js:13 | `Math.round` is the integer within one half of its argument, with halves going up |
| Common.RoundBetween | backend/utils/scoring.js:12-13 | rounding a value between two integers stays between them |
| Common.Percent | backend/utils/scoring.js:49 | a fraction of at most one is a percentage between 0 and 100; all is 100 and none is 0 |
| Common.PercentTimes | backend/utils/scoring.js:49 | a percentage times its denominator is a hundred times its numerator, and it is 0 exactly when the numerator is |
| Common.FilterMembers | frontend/src/components/jobs/JobForm.jsx:17 | the filtered list holds exactly the elements that pass the test |
| Common.FilterAppend | frontend/src/store/slices/jobSlice.js:146 | filtering keeps relative order: filtering a concatenation concatenates the filtered parts |
| Common.FilterCommutes | frontend/src/store/slices/candidateSlice.js:126 | two filters can be applied in either order |
| Common.CountWhereIsFilterLength | frontend/src/components/dashboard/DashBoard.jsx:43 | counting with `filter(...).length` equals counting the elements that pass |
| Text.Trim | frontend/src/components/jobs/JobForm.jsx:17 | `trim` gives a slice of the input with only white space before and after it, and with no white space at either end of its own; these fix it as the input without its white-space ends |
| Text.TrimPadded | frontend/src/components/jobs/JobForm.jsx:17 | a trimmed string padded with white space on both sides trims back to itself |
| Text.TrimEmptyIff | backend/controllers/candidateController.js:66 | a string trims to empty exactly when it is all white space |
| Text.Utf16Length | backend/controllers/candidateController.js:66 | `length` counts UTF-16 code units: between one and two per character, and exactly one per character only when none lies above U+FFFF |
| Text.Utf16LengthAppend | backend/controllers/candidateController.js:66 | the code-unit length of a concatenation is the sum of the parts' lengths |
| Text.Utf16LengthAstral | backend/controllers/candidateController.js:66 | a string of characters above U+FFFF has two code units per character |
| Text.Split | frontend/src/components/jobs/JobForm.jsx:17 | `split` gives one more piece than there are separators, none containing a separator |
| Text.SplitJoin | frontend/src/components/jobs/JobForm.jsx:17 | splitting a join of separator-free pieces gives the pieces back |
| Text.SplitConcat | frontend/src/components/jobs/JobForm.jsx:17 | splitting around a separator splits the two sides independently |
| Nlp.Preprocess | backend/utils/scoring.js:59-65 | preprocessing yields at most as many tokens as the tokenizer finds, and none for the empty text |
| Nlp.PreprocessMembers | backend/utils/nlpProcessor.js:53-60 | a token occurs exactly when it is the stem of a word of the lower-cased text that is not a stop-word |
| Nlp.CollectSkills | backend/utils/nlpProcessor.js:66-71 | the `forEach` into a `Set` collects each matching skill once, in first-occurrence order, and nothing else |
| Nlp.ExtractSkills | backend/utils/nlpProcessor.js:62-74 | the result has no duplicates and lies within the job's skills, in their first-occurrence order; it holds a skill exactly when the skill's first token is a resume token; it is empty for empty text |
| Nlp.NoTokensNeverExtracted | backend/utils/nlpProcessor.js:67-70 | a skill that preprocesses to no tokens is never extracted |
| Nlp.TokenSet | backend/utils/nlpProcessor.js:80-83 | the token set holds exactly the tokens of the text, and is empty exactly when there are none |
| Nlp.JaccardScore | backend/utils/nlpProcessor.js:76-87 | the legacy score is undefined (0/0) exactly when both texts have no tokens, and otherwise lies in 0..100 |
| Nlp.JaccardSymmetric | backend/utils/nlpProcessor.js:76-87 | the legacy score does not depend on which text is the resume |
| Nlp.JaccardIdentical | backend/utils/nlpProcessor.js:76-87 | a text with tokens scores 100 against itself |
| Experience.MatchHereExact | backend/utils/scoring.js:53 | trying the pattern at one start succeeds exactly when the whole digit run there is followed by optional white space and a unit; no shorter digit group can match |
| Experience.Scan | backend/utils/scoring.js:53 | the search finds the leftmost match with the longest digit group, or reports that there is none |
| Experience.ExperienceScore | backend/utils/scoring.js:52-57 | the score is 0 without a match and otherwise ten points per year of the first match, capped at 100 |
| Experience.FiveYears | backend/utils/scoring.js:52-57 | "5 years of experience" scores 50 |
| Experience.TwelveYears | backend/utils/scoring.js:52-57 | "12 yrs" scores 100 |
| Experience.FirstMentionOnly | backend/utils/scoring.js:52-57 | only the first mention counts: "3 years, then 10 years" scores 30 |
| Scoring.WeightMap | backend/utils/scoring.js:21-24 | the own properties of the term table are exactly the listed terms other than `__proto__`, each holding the non-negative weight of one listing of that term |
| Scoring.LastEntryWins | backend/utils/scoring.js:22-24 | when a term is listed several times, the table keeps the weight of its last listing |
| Scoring.ReadsInheritedIff | backend/utils/scoring.js:21-28 | a job term reads an inherited property exactly when it is an `Object.prototype` name and is `__proto__` or absent from the resume list |
| Scoring.Overlap | backend/utils/scoring.js:26-31 | the overlap is NaN exactly when some job term reads an inherited property; otherwise it is non-negative, and zero when no job term has a non-zero resume weight |
| Scoring.OverlapAppend | backend/utils/scoring.js:26-31 | the overlap is a sum over the job terms: it splits over a concatenation, and is NaN when either part is |
| Scoring.SimilarityFromTerms | backend/utils/scoring.js:16-34 | the similarity is NaN exactly when a job term reads an inherited property of the table; otherwise it lies in 0..100, and is 0 when every shared term has zero resume weight |
| Scoring.SharedTermSimilarity | backend/utils/scoring.js:16-34 | for one shared term the similarity is the capped, rounded percentage of the product of its two weights, or 0 when the resume weight is 0 |
| Scoring.TextSimilarity | backend/utils/scoring.js:16-34 | text similarity is NaN exactly when a job term reads an inherited property, and otherwise lies in 0..100 |
| Scoring.SkillMatch | backend/utils/scoring.js:36-50 | skill match lies in 0..100, and is 0 when the skill list is absent or empty, whatever the resume says |
| Scoring.SkillMatchIsMatchedShare | backend/utils/scoring.js:39-49 | with skills, skill match is the percentage of the skills that the `filter` of the test keeps |
| Scoring.SkillMatchZero | backend/utils/scoring.js:39-49 | with skills, skill match is 0 exactly when no skill has a token in the resume |
| Scoring.CountAppend | backend/utils/scoring.js:42-47 | one more skill adds one to the matched count exactly when some token of it is a resume token |
| Scoring.SkillMatchFull | backend/utils/scoring.js:39-49 | with skills, skill match is 100 exactly when every skill matches |
| Scoring.EmptySkillCountsAgainst | backend/utils/scoring.js:43-49 | a skill with no tokens never matches, yet counts in the denominator |
| Scoring.AppendMatchingSkill | backend/utils/scoring.js:42-49 | appending a matching skill never lowers skill match |
| Scoring.AppendNonMatchingSkill | backend/utils/scoring.js:42-49 | appending a non-matching skill never raises skill match |
| Scoring.ExtractedSkillsMatch | backend/utils/scoring.js:42-47 | every skill the extractor reports also counts as matched for skill match |
| Scoring.Composite | backend/utils/scoring.js:12-13 | the weighted blend lies in 0..100 whenever its three parts do |
| Scoring.CompositeMonotone | backend/utils/scoring.js:12-13 | raising any of the three sub-scores never lowers the overall score |
| Scoring.CompositeExample | backend/utils/scoring.js:12-13 | 80, 60 and 50 blend to 68 |
| Scoring.AdvancedMatch | backend/utils/scoring.js:7-14 | the match score is NaN exactly when the text similarity is, and otherwise lies in 0..100 |
| Scoring.ConstructorTermIsNaN | backend/utils/scoring.js:21-33 | a job term "constructor" that the resume lacks makes the text similarity and the match score NaN |
| Scoring.EmptyResumeScoresZero | backend/utils/scoring.js:7-14 | an empty resume scores 0 on every part and overall, unless the job description has an inherited property name among its terms |
| Contact.LastDot | backend/utils/nlpProcessor.js:15 | the greedy domain part backtracks to the last dot followed by two letters, and reports none when there is no such dot |
| Contact.MatchFromSound | backend/utils/nlpProcessor.js:15 | what the matcher reports at a start is a match of the e-mail pattern |
| Contact.MatchFromComplete | backend/utils/nlpProcessor.js:15 | every match at a start is found, and is no longer than the one reported |
| Contact.Scan | backend/utils/nlpProcessor.js:15-16 | the search reports the leftmost and longest e-mail match, or that there is none |
| Contact.ExtractEmail | backend/utils/nlpProcessor.js:14-18 | the extracted address always contains an `@` |
| Contact.ExtractEmailIsFirstMatch | backend/utils/nlpProcessor.js:14-18 | the address is the first match of the pattern |
| Contact.AddressAfterLabel | backend/utils/nlpProcessor.js:14-18 | an address closing the text after an `@`-free label ending in a non-address character is extracted exactly, whatever the label |
| Contact.LabelledAddress | backend/utils/nlpProcessor.js:14-18 | "contact: jane@x.co" yields "jane@x.co" |
| Contact.NoMatchGivesDefault | backend/utils/nlpProcessor.js:14-18 | without a match the placeholder address is returned |
| Contact.NoAtSignGivesDefault | backend/utils/nlpProcessor.js:14-18 | text without `@` yields the placeholder address |
| Contact.NonBlankLines | backend/utils/nlpProcessor.js:21-25 | the kept lines are trimmed, non-empty and newline-free; the first is the first non-blank line; none are left when every line is blank |
| Contact.ExtractName | backend/utils/nlpProcessor.js:20-27 | the name is never empty, trimmed and on one line; it is the first non-blank line, or the placeholder when there is none |
| Contact.BlankLineSkipped | backend/utils/nlpProcessor.js:20-27 | a leading blank line does not change the name |
| Contact.NameSkipsBlankLines | backend/utils/nlpProcessor.js:20-27 | "\n\nJane Doe\n..." gives "Jane Doe" |
| Contact.NameIsFirstLineWhatever | backend/utils/nlpProcessor.js:20-27 | the first non-blank line is the name whatever it holds, a phone number included |
| Intake.GivenOr | backend/controllers/candidateController.js:80-81 | the caller's value wins, trimmed, unless it is absent or blank |
| Intake.StoredCandidate | backend/controllers/candidateController.js:73-101 | for a score that is a number: the stored skills are exactly the job's skills whose first token is in the resume; the score is the composite against the job and lies in 0..100; name and e-mail are non-empty, and an extracted e-mail has an `@` |
| Intake.ProcessResume | backend/controllers/candidateController.js:47-113 | a missing file, then a missing or foreign job, then null text or text under ten UTF-16 code units once trimmed each give their error in that order; every other submission is stored exactly when its score is a number, and otherwise fails the cast; the missing-contact error never happens |
| Intake.Store | backend/controllers/candidateController.js:73-104 | once the file, job and text checks pass, the submission is stored exactly when its score is a number, as the record `StoredCandidate` describes; otherwise the number cast fails, and the contact check never does |
| Intake.AstralTextPassesLengthCheck | backend/controllers/candidateController.js:66-68 | five emoji above U+FFFF are ten code units and pass the short-text test |
| Intake.StoredSkillMatchZeroIff | backend/models/Job.js:15-24 | for a job the schema admits, the skill-match part is 0 exactly when none of the job's skills has a token in the resume |
| Upload.DropTrailingSlashes | backend/middleware/upload.js:8 | trailing slashes are dropped and only they are |
| Upload.AfterLastSlash | backend/middleware/upload.js:8 | the base name is the slash-free end of the path after the last slash |
| Upload.LastIndexOf | backend/middleware/upload.js:8 | the last position of a character, or none exactly when it does not occur |
| Upload.ExtName | backend/middleware/upload.js:8 | the extension is empty or a dot followed by dot-free, slash-free text, and is empty when the base name has no dot |
| Upload.ExtNameOfFileName | backend/middleware/upload.js:8 | the extension of "stem.ext" is ".ext" |
| Upload.AcceptedTypeIsPdfOrDoc | backend/middleware/upload.js:7 | `/pdf\|docx\|doc/` matches exactly when "pdf" or "doc" occurs anywhere |
| Upload.FileFilter | backend/middleware/upload.js:6-16 | a file is accepted exactly when both its lower-cased extension and its MIME type match the pattern; otherwise the fixed error message is given |
| Upload.NoExtensionRejected | backend/middleware/upload.js:8-14 | a name without a dot is rejected whatever the MIME type |
| Upload.UpperCaseExtensionAccepted | backend/middleware/upload.js:8 | ".PDF" passes because the extension is lower-cased |
| Upload.MacroDocumentAccepted | backend/middleware/upload.js:7-9 | the unanchored pattern admits ".docm" with a macro-enabled MIME type |
| Upload.PdfxAccepted | backend/middleware/upload.js:7-9 | the unanchored pattern admits ".pdfx" |
| Upload.ImageRejected | backend/middleware/upload.js:7-15 | every `image/` MIME type whose subtype contains neither "pdf" nor "doc" is rejected, whatever the file name |
| Upload.LegacyWordMimeTypeRejected | backend/middleware/upload.js:7-15 | the `application/msword` MIME type is always rejected |
| Upload.CheckLimits | backend/middleware/upload.js:21-24 | an upload passes exactly when it has at most one file of at most 5 MiB, and each error names a real violation |
| Upload.SizeLimitBoundary | backend/middleware/upload.js:22 | 5,242,880 bytes pass and one byte more fails |
| SkillsField.TrimAll | frontend/src/components/jobs/JobForm.jsx:17 | every piece is trimmed in place |
| SkillsField.ParseSkills | frontend/src/components/jobs/JobForm.jsx:17 | every entry is trimmed, non-empty and comma-free; there are at most one more entries than commas; an entry occurs exactly when it is a non-empty trimmed piece of the input |
| SkillsField.ParseConcat | frontend/src/components/jobs/JobForm.jsx:17 | parsing two lists joined by a comma concatenates their parses, so input order is kept |
| SkillsField.BlankInputGivesNoSkills | frontend/src/components/jobs/JobForm.jsx:17 | input of commas and white space only gives no skills |
| SkillsField.ParseJoin | frontend/src/components/jobs/JobForm.jsx:17 | joining well-formed entries with commas and parsing gives them back |
| SkillsField.ParseIdempotent | frontend/src/components/jobs/JobForm.jsx:17 | parsing the comma-joined result again changes nothing |
| Redux.Field | frontend/src/store/slices/jobSlice.js:104 | optional property access yields `undefined` unless the value is an object with that key |
| Redux.RejectionError | frontend/src/store/slices/jobSlice.js:104 | a rejection stores the payload's message if truthy, else the default, so the stored error is truthy |
| Redux.RejectionErrorCases | frontend/src/store/slices/jobSlice.js:104 | a non-empty message wins, while an empty or missing one gives the default |
| Redux.WithoutId | frontend/src/store/slices/jobSlice.js:146 | exactly the records with another id remain, nothing is removed when no record has the id, and no nullish record appears |
| Redux.WithoutIdIdempotent | frontend/src/store/slices/jobSlice.js:146 | removing an id twice is removing it once |
| Redux.WithoutIdAppend | frontend/src/store/slices/jobSlice.js:146 | removal keeps the relative order of what stays |
| Redux.WithoutIdCommutes | frontend/src/store/slices/candidateSlice.js:126 | removals of two ids commute |
| JobSlice.NormalizeResponse | frontend/src/store/slices/jobSlice.js:16-22 | an array is kept, an array `data` is taken, an object `data` becomes a one-element list, and anything else becomes the empty list |
| JobSlice.NormalizeResponseIdempotent | frontend/src/store/slices/jobSlice.js:16-22 | normalising twice is normalising once, and the `{ data: [...] }` envelope gives the bare array's list |
| JobSlice.ReplaceById | frontend/src/store/slices/jobSlice.js:130-132 | the length is kept; jobs with the updated id become the update and all others stay |
| JobSlice.ReplaceByIdIdempotent | frontend/src/store/slices/jobSlice.js:130-132 | applying the same update twice is applying it once |
| JobSlice.ClearError | frontend/src/store/slices/jobSlice.js:83-85 | only the error changes, to null |
| JobSlice.ResetOperation | frontend/src/store/slices/jobSlice.js:86-88 | only the operation status changes, to idle |
| JobSlice.StartFetch | frontend/src/store/slices/jobSlice.js:93-96 | loading with the error cleared; jobs and operation status untouched |
| JobSlice.FinishFetch | frontend/src/store/slices/jobSlice.js:97-101 | succeeded, with the payload as the job list; error and operation status untouched |
| JobSlice.FailFetch | frontend/src/store/slices/jobSlice.js:102-105 | failed, with a truthy error from the payload or the default; jobs untouched |
| JobSlice.StartOperation | frontend/src/store/slices/jobSlice.js:108-110 | only the operation status changes, to loading |
| JobSlice.FailOperation | frontend/src/store/slices/jobSlice.js:115-118 | the operation fails with a truthy error; jobs and fetch status untouched |
| JobSlice.AddJob | frontend/src/store/slices/jobSlice.js:111-114 | the new job is appended; earlier jobs are unchanged and the list grows by one |
| JobSlice.ApplyUpdate | frontend/src/store/slices/jobSlice.js:125-134 | a nullish payload changes nothing; on an empty list only the status becomes succeeded; a nullish `data` or job in a non-empty list changes nothing; otherwise jobs with the updated id are replaced and the rest kept |
| JobSlice.UpdateOnEmptyList | frontend/src/store/slices/jobSlice.js:125-132 | an update with any non-nullish response on an empty list marks the operation succeeded and changes nothing else |
| JobSlice.RemoveJob | frontend/src/store/slices/jobSlice.js:144-147 | a nullish job in the list changes nothing; otherwise exactly the jobs with another id remain, and the operation succeeds |
| JobSlice.NullishJobBlocksDelete | frontend/src/store/slices/jobSlice.js:144-147 | with a nullish job in the list, every delete leaves the state as it was |
| JobSlice.JobReducer | frontend/src/store/slices/jobSlice.js:82-152 | only fulfilments change the list, only fetches change the fetch status, fetches and clearing never change the operation status, and rejections leave a truthy error |
| JobSlice.DeleteIdempotent | frontend/src/store/slices/jobSlice.js:144-147 | deleting the same job twice is deleting it once |
| JobSlice.UpdateIdempotent | frontend/src/store/slices/jobSlice.js:125-134 | delivering the same update twice is delivering it once |
| JobSlice.CreateThenDelete | frontend/src/store/slices/jobSlice.js:111-147 | deleting a job just created, whose id no other job has, restores the list when no entry is nullish |
| CandidateSlice.ClearError | frontend/src/store/slices/candidateSlice.js:72-74 | only the error changes, to null |
| CandidateSlice.ResetStatuses | frontend/src/store/slices/candidateSlice.js:75-78 | both statuses become idle; list and error untouched |
| CandidateSlice.StartFetch | frontend/src/store/slices/candidateSlice.js:83-86 | loading with the error cleared; list and upload status untouched |
| CandidateSlice.FinishFetch | frontend/src/store/slices/candidateSlice.js:87-90 | succeeded, with the payload as the list |
| CandidateSlice.FailFetch | frontend/src/store/slices/candidateSlice.js:91-94 | failed, with a truthy error; list untouched |
| CandidateSlice.StartUpload | frontend/src/store/slices/candidateSlice.js:111-114 | uploading with the error cleared; the fetch status untouched |
| CandidateSlice.FinishUpload | frontend/src/store/slices/candidateSlice.js:115-118 | the new candidate goes in front and the rest of the list is unchanged |
| CandidateSlice.FailUpload | frontend/src/store/slices/candidateSlice.js:119-122 | the upload fails with a truthy error; list and fetch status untouched |
| CandidateSlice.RemoveCandidate | frontend/src/store/slices/candidateSlice.js:125-127 | a nullish candidate in the list changes nothing; otherwise exactly the candidates with another id remain; no status or error changes |
| CandidateSlice.CandidateReducer | frontend/src/store/slices/candidateSlice.js:71-128 | only fulfilments change the list, only fetches and reset change the fetch status, only uploads and reset change the upload status, and the delete cases without a handler change nothing |
| CandidateSlice.DeleteIdempotent | frontend/src/store/slices/candidateSlice.js:125-127 | deleting the same candidate twice is deleting it once |
| CandidateSlice.UploadThenDelete | frontend/src/store/slices/candidateSlice.js:115-127 | deleting a just-uploaded candidate, whose id no other candidate has, restores the list when no entry is nullish |
| AuthSlice.NatString | frontend/src/store/slices/authSlice.js:64 | a natural number's string is a non-empty run of decimal digits |
| AuthSlice.NatStringValue | frontend/src/store/slices/authSlice.js:64 | those digits spell the number in decimal, and start with `0` only for zero itself |
| AuthSlice.StorageString | frontend/src/store/slices/authSlice.js:64 | storage converts a string to itself, `undefined` to "undefined" and `null` to "null" |
| AuthSlice.Stored | frontend/src/store/slices/authSlice.js:32-33 | a stored item is read back as a string only when present and non-empty, else as null |
| AuthSlice.InitialAuthState | frontend/src/store/slices/authSlice.js:30-36 | a page load starts idle with no user and no error, and takes the tokens from storage |
| AuthSlice.LogOut | frontend/src/store/slices/authSlice.js:38-47 | everything in the state is reset, and exactly the token keys leave the two storages |
| AuthSlice.ClearAuthError | frontend/src/store/slices/authSlice.js:48-50 | only the error changes, to null |
| AuthSlice.StartAuth | frontend/src/store/slices/authSlice.js:55-58 | loading with the error cleared; tokens, user and storage untouched |
| AuthSlice.FinishAuth | frontend/src/store/slices/authSlice.js:59-68 | idle, with the payload's token; refresh token and user only when truthy; the token always stored, the refresh token only when truthy; a nullish payload changes nothing |
| AuthSlice.FailAuth | frontend/src/store/slices/authSlice.js:69-72 | idle with a truthy error; tokens, user and storage untouched |
| AuthSlice.AuthReducer | frontend/src/store/slices/authSlice.js:37-93 | every settled request and logout leave the status idle, pending ones set loading, only fulfilments and logout touch storage or the token, and rejections leave a truthy error |
| AuthSlice.LoginThenReload | backend/controllers/authController.js:53 | after this server's login response the user stays null, and a reload restores both tokens |
| AuthSlice.StaleRefreshTokenSurvivesReload | frontend/src/store/slices/authSlice.js:65-67 | without a refresh token in the response, the state says null but a reload brings back the older stored one |
| AuthSlice.MissingTokenStoredAsUndefined | frontend/src/store/slices/authSlice.js:64 | a response without a token stores "undefined", which a reload takes for a token |
| AuthSlice.LogoutThenReload | frontend/src/store/slices/authSlice.js:38-41 | after logout a reload finds no tokens |
| Dashboard.ScoreOf | frontend/src/components/dashboard/DashBoard.jsx:39 | a numeric score counts as itself, and a missing one as 0 |
| Dashboard.ScoreSumBounds | frontend/src/components/dashboard/DashBoard.jsx:39 | the sum of percentages lies between 0 and 100 times the count |
| Dashboard.AverageScore | frontend/src/components/dashboard/DashBoard.jsx:39 | the average is 0 for no candidates; otherwise it times the count is the score sum, and it lies in 0..100 for percentage scores |
| Dashboard.CountFor | frontend/src/components/dashboard/DashBoard.jsx:43 | a job never has more candidates than there are |
| Dashboard.CandidatesPerJob | frontend/src/components/dashboard/DashBoard.jsx:40-44 | one row per job in job order, with the job's id, title and number of candidates |
| Dashboard.PerJobCountsAddUp | frontend/src/components/dashboard/DashBoard.jsx:40-44 | for jobs with distinct ids, the rows add up to the candidates applied to any listed job, so never more than all candidates |
| Dashboard.Insert | frontend/src/components/dashboard/DashBoard.jsx:46-47 | inserting keeps the list sorted by descending score and adds exactly the one element |
| Dashboard.InsertStable | frontend/src/components/dashboard/DashBoard.jsx:46-47 | among equal scores, the inserted element goes after those already there |
| Dashboard.SortByScore | frontend/src/components/dashboard/DashBoard.jsx:46-47 | the sort is a permutation ordered by descending score |
| Dashboard.SortStable | frontend/src/components/dashboard/DashBoard.jsx:46-47 | the sort is stable: candidates with equal scores keep their order |
| Dashboard.TopCandidates | frontend/src/components/dashboard/DashBoard.jsx:46-48 | as many candidates as there are up to five, sorted, a sub-multiset of the list, and none scoring below a candidate left out |
| Dashboard.TopCandidatesKeepsEarliest | frontend/src/components/dashboard/DashBoard.jsx:46-48 | ties at the cut go to the earlier candidates: for every score, the kept candidates with it are the first ones with it in the list |
| Dashboard.BadgeFor | frontend/src/components/dashboard/DashBoard.jsx:136-140 | green exactly above 75, yellow exactly in 51..75, red exactly at 50 or below or when missing |
| Dashboard.BadgeMonotone | frontend/src/components/candidates/CandidateList.jsx:44-48 | a higher score never gets a worse badge |
| Dashboard.DashboardMetrics | frontend/src/components/dashboard/DashBoard.jsx:37-48 | the render throws exactly when a job or candidate is `null` or `undefined`; otherwise the totals are the list lengths, there is one per-job row per job, the top list holds five candidates or all of them when fewer, and the average lies in 0..100 for percentage scores |

## Left out

- Text extraction from PDF, Word and image files (`extractTextFromFile` with pdf-parse, mammoth and OCR) is a foreign binary-parsing call. The extracted text, or its absence, is an input of `Intake.ProcessResume`.
- The internals of the `natural` and `stopword` libraries (word tokenizer, Porter stemmer, stop-word list, TF-IDF) are unseen library code. They are parameters, and the only assumptions made are non-negative weights and no words in the empty text.
- `toLowerCase` is modelled on ASCII letters only. Unicode case mapping is not modelled.
- Floating point is modelled as exact real arithmetic. IEEE-754 rounding and `toFixed` are not modelled. NaN is modelled only where it can arise: the text similarity and the composite are `None`, and so is the Jaccard `0 / 0`.
- JSON numbers are integers in the model. Fractional scores sent to the client are not represented.
- Dashboard.ScoreOf: a truthy non-number `matchScore` (a numeric string, say) counts as 0. JavaScript would concatenate or coerce it instead.
- Dashboard.BadgeFor: a present non-number score is not modelled. JavaScript's coercion in `>` is left out.
- The `lastFetch` timestamp of the jobs slice reads the clock and is left out.
- The thunk bodies and the axios client are network code. Each action carries the payload the thunk would produce; a fetch fulfilment carries a list.
- A reducer that throws on a nullish payload or list entry is modelled as leaving the state unchanged, which is what the store does with a thrown reducer. The error Redux then raises to the dispatcher is not modelled.
- Express routing, mongoose queries and persistence are I/O and are left out. So is JWT signing. The ownership lookup of `processResume` is an input (`ownedJob`).
- Intake.ProcessResume: of the Candidate schema's own validation at `Candidate.create`, only the number cast of a NaN score is modelled; the e-mail format check and required fields are not. Neither are database errors. The error handler is not part of this model, so the status 500 of `ScoreNotANumber` is that of an error without a status of its own.
- Upload.CheckLimits: multer's streaming, its order of checks between the file filter and the limits, and its error objects are not modelled. Only the two limits are.
- Concurrent dispatches are not modelled. Actions are applied one at a time.
- React rendering, routing and the store wiring are UI code.

=== FILE: auth_slice.dfy ===
/** The client's authentication slice and the browser storage it writes:
    the tokens survive a page reload only through `localStorage`, which
    holds strings. */
module AuthSlice {
  import opened Common
  import opened Redux
  import Text

  /** The decimal digits of a natural number. */
  function NatString(n: nat): (r: string)
    ensures |r| >= 1
    ensures forall k :: 0 <= k < |r| ==> '0' <= r[k] <= '9'
    decreases n
  {
    var digit := ['0' + (n % 10) as char];
    if n < 10 then digit else NatString(n / 10) + digit
  }

  /** The digits of `NatString(n)` spell `n` in decimal, with no leading zero. */
  lemma {:induction false} NatStringValue(n: nat)
    ensures Text.DigitsValue(NatString(n)) == n
    ensures NatString(n)[0] == '0' <==> n == 0
    ensures |NatString(n)| > 1 ==> NatString(n)[0] != '0'
    decreases n
  {
    var s := NatString(n);
    if n >= 10 {
      var front := NatString(n / 10);
      NatStringValue(n / 10);
      assert s == front + ['0' + (n % 10) as char];
      assert s[..|s| - 1] == front;
    }
  }

  /** `String(n)` for an integer. */
  function IntString(n: int): string {
    if n < 0 then "-" + NatString(-n) else NatString(n)
  }

  /** `String(j)`, the conversion `localStorage.setItem` applies to its value. */
  function StorageString(j: Json): (r: string)
    ensures j.JString? ==> r == j.s
    ensures j.JUndefined? ==> r == "undefined"
    ensures j.JNull? ==> r == "null"
    decreases j, 1
  {
    match j
    case JUndefined => "undefined"
    case JNull => "null"
    case JBool(b) => if b then "true" else "false"
    case JNumber(n) => IntString(n)
    case JString(s) => s
    case JArray(items) => ArrayString(j, 0)
    case JObject(_) => "[object Object]"
  }

  /** `Array.prototype.join(",")` of the elements from `i` on, where `null`
      and `undefined` elements become empty strings. */
  function ArrayString(j: Json, i: nat): string
    requires j.JArray? && i <= |j.items|
    decreases j, 0, |j.items| - i
  {
    if i == |j.items| then ""
    else
      var x := j.items[i];
      var piece := if IsNullish(x) then "" else StorageString(x);
      if i + 1 == |j.items| then piece else piece + "," + ArrayString(j, i + 1)
  }

  /** The browser's `localStorage` and `sessionStorage`. */
  datatype Storage = Storage(local: map<string, string>, session: map<string, string>)

  datatype AuthState = AuthState(user: Json, token: Json, refreshToken: Json, status: Status, error: Json)

  /** The slice state together with the storage it writes. */
  datatype Client = Client(state: AuthState, storage: Storage)

  /** `localStorage.getItem(key) || null`. */
  function Stored(storage: Storage, key: string): (r: Json)
    ensures r == JNull || (key in storage.local && r == JString(storage.local[key]) && storage.local[key] != "")
  {
    if key in storage.local && storage.local[key] != "" then JString(storage.local[key]) else JNull
  }

  /** The state the slice starts with when the page loads. */
  function InitialAuthState(storage: Storage): (r: AuthState)
    ensures r.user == JNull && r.status == Idle && r.error == JNull
    ensures r.token == Stored(storage, "token") && r.refreshToken == Stored(storage, "refreshToken")
  {
    AuthState(JNull, Stored(storage, "token"), Stored(storage, "refreshToken"), Idle, JNull)
  }

  datatype AuthAction =
    | Logout
    | ClearError
    | RegisterPending
    | RegisterFulfilled(payload: Json)
    | RegisterRejected(payload: Json)
    | LoginPending
    | LoginFulfilled(payload: Json)
    | LoginRejected(payload: Json)
  {
    predicate IsPending() { RegisterPending? || LoginPending? }
    predicate IsFulfilled() { RegisterFulfilled? || LoginFulfilled? }
    predicate IsRejected() { RegisterRejected? || LoginRejected? }
  }

  /** `logout`: everything in the state is reset and the stored tokens are removed. */
  function LogOut(c: Client): (r: Client)
    ensures r.state == AuthState(JNull, JNull, JNull, Idle, JNull)
    ensures "token" !in r.storage.local && "refreshToken" !in r.storage.local && "token" !in r.storage.session
    ensures forall k :: k in r.storage.local <==> k in c.storage.local && k != "token" && k != "refreshToken"
    ensures forall k :: k in r.storage.session <==> k in c.storage.session && k != "token"
  {
    var storage := Storage(c.storage.local - {"token", "refreshToken"}, c.storage.session - {"token"});
    Client(AuthState(JNull, JNull, JNull, Idle, JNull), storage)
  }

  /** `clearError`: only the error is cleared. */
  function ClearAuthError(c: Client): (r: Client)
    ensures r.state.error == JNull && r.storage == c.storage
    ensures r.state.user == c.state.user && r.state.token == c.state.token
    ensures r.state.refreshToken == c.state.refreshToken && r.state.status == c.state.status
  {
    c.(state := c.state.(error := JNull))
  }

  /** The pending case of register and login: loading, error cleared. */
  function StartAuth(c: Client): (r: Client)
    ensures r.state.status == Loading && r.state.error == JNull && r.storage == c.storage
    ensures r.state.user == c.state.user && r.state.token == c.state.token
    ensures r.state.refreshToken == c.state.refreshToken
  {
    c.(state := c.state.(status := Loading, error := JNull))
  }

  /** The fulfilled case of register and login. The token is taken as it is
      (a missing one is `undefined`), the refresh token and the user only when
      truthy. The token is always written to storage, converted to a string;
      the refresh token only when truthy. A `null` or missing payload makes
      the reducer throw, and the store keeps its state. */
  function FinishAuth(c: Client, payload: Json): (r: Client)
    ensures IsNullish(payload) ==> r == c
    ensures !IsNullish(payload) ==>
      var token := Field(payload, "token");
      var refresh := Field(payload, "refreshToken");
      && r.state.status == Idle && r.state.error == c.state.error
      && r.state.token == token
      && r.state.refreshToken == (if Truthy(refresh) then refresh else JNull)
      && r.state.user == (if Truthy(Field(payload, "user")) then Field(payload, "user") else JNull)
      && "token" in r.storage.local && r.storage.local["token"] == StorageString(token)
      && (Truthy(refresh) ==> "refreshToken" in r.storage.local
                              && r.storage.local["refreshToken"] == StorageString(refresh))
      && (!Truthy(refresh) ==> ("refreshToken" in r.storage.local <==> "refreshToken" in c.storage.local)
                               && ("refreshToken" in c.storage.local ==>
                                     r.storage.local["refreshToken"] == c.storage.local["refreshToken"]))
      && r.storage.session == c.storage.session
  {
    if IsNullish(payload) then c
    else
      var token := Field(payload, "token");
      var refresh := Field(payload, "refreshToken");
      var user := Field(payload, "user");
      var state := c.state.(
        status := Idle,
        token := token,
        refreshToken := if Truthy(refresh) then refresh else JNull,
        user := if Truthy(user) then user else JNull);
      var local := c.storage.local["token" := StorageString(token)];
      var local' := if Truthy(refresh) then local["refreshToken" := StorageString(refresh)] else local;
      Client(state, c.storage.(local := local'))
  }

  /** The rejected case of register and login: back to idle with an error;
      the tokens, the user and the storage are untouched. */
  function FailAuth(c: Client, payload: Json, fallback: string): (r: Client)
    requires fallback != ""
    ensures r.state.status == Idle && r.state.error == RejectionError(payload, fallback) && Truthy(r.state.error)
    ensures r.state.token == c.state.token && r.state.refreshToken == c.state.refreshToken
    ensures r.state.user == c.state.user && r.storage == c.storage
  {
    c.(state := c.state.(status := Idle, error := RejectionError(payload, fallback)))
  }

  /** The slice's reducer, with its storage writes. Every settled request
      leaves the status idle; only fulfilments and logout touch the storage or
      the tokens. */
  function AuthReducer(c: Client, a: AuthAction): (r: Client)
    ensures (a.IsRejected() || a.Logout?) ==> r.state.status == Idle
    ensures a.IsFulfilled() && !IsNullish(a.payload) ==> r.state.status == Idle
    ensures a.IsPending() ==> r.state.status == Loading
    ensures r.storage != c.storage ==> a.IsFulfilled() || a.Logout?
    ensures r.state.token != c.state.token ==> a.IsFulfilled() || a.Logout?
    ensures a.IsRejected() ==> Truthy(r.state.error)
  {
    match a
    case Logout => LogOut(c)
    case ClearError => ClearAuthError(c)
    case RegisterPending => StartAuth(c)
    case RegisterFulfilled(payload) => FinishAuth(c, payload)
    case RegisterRejected(payload) => FailAuth(c, payload, "Registration failed")
    case LoginPending => StartAuth(c)
    case LoginFulfilled(payload) => FinishAuth(c, payload)
    case LoginRejected(payload) => FailAuth(c, payload, "Login failed")
  }

  /** The body the server sends after a successful register or login. */
  function ServerAuthResponse(token: string, refreshToken: string): Json {
    JObject(map["success" := JBool(true), "token" := JString(token), "refreshToken" := JString(refreshToken)])
  }

  /** After a successful login against this server, the user stays `null`
      (the response has no user), and a page reload restores both tokens. */
  lemma LoginThenReload(c: Client, token: string, refreshToken: string)
    requires token != "" && refreshToken != ""
    ensures var r := FinishAuth(c, ServerAuthResponse(token, refreshToken));
      && r.state.user == JNull
      && r.state.token == JString(token) && r.state.refreshToken == JString(refreshToken)
      && InitialAuthState(r.storage).token == r.state.token
      && InitialAuthState(r.storage).refreshToken == r.state.refreshToken
  {
    var payload := ServerAuthResponse(token, refreshToken);
    assert Field(payload, "token") == JString(token);
    assert Field(payload, "refreshToken") == JString(refreshToken);
    assert Field(payload, "user") == JUndefined;
  }

  /** A fulfilment without a refresh token leaves an older stored one in
      place: the state says `null`, but a reload brings the old one back. */
  lemma StaleRefreshTokenSurvivesReload(c: Client, token: string, previous: string)
    requires token != "" && previous != ""
    requires "refreshToken" in c.storage.local && c.storage.local["refreshToken"] == previous
    ensures var r := FinishAuth(c, JObject(map["token" := JString(token)]));
      && r.state.refreshToken == JNull
      && InitialAuthState(r.storage).refreshToken == JString(previous)
  {
    var payload := JObject(map["token" := JString(token)]);
    assert Field(payload, "refreshToken") == JUndefined;
  }

  /** A fulfilment without a token stores the string "undefined", which a
      reload then takes for a token. */
  lemma MissingTokenStoredAsUndefined(c: Client)
    ensures var r := FinishAuth(c, JObject(map[]));
      && r.state.token == JUndefined
      && InitialAuthState(r.storage).token == JString("undefined")
  {
    assert Field(JObject(map[]), "token") == JUndefined;
  }

  /** After logging out, a reload finds no tokens. */
  lemma LogoutThenReload(c: Client)
    ensures InitialAuthState(LogOut(c).storage).token == JNull
    ensures InitialAuthState(LogOut(c).storage).refreshToken == JNull
  {
  }
}

=== FILE: candidate_slice.dfy ===
/** The client's candidates slice: the candidate list, the fetch status, the
    upload status and the last error. */
module CandidateSlice {
  import opened Common
  import opened Redux

  datatype CandidateState = CandidateState(candidates: seq<Json>, status: Status, error: Json, uploadStatus: Status)

  const InitialCandidateState := CandidateState([], Idle, JNull, Idle)

  /** The actions the slice reacts to. The pending and rejected actions of a
      delete are dispatched too but have no case in the slice. */
  datatype CandidateAction =
    | ClearErrors
    | ResetStatus
    | FetchPending
    | FetchFulfilled(candidates: seq<Json>)
    | FetchRejected(payload: Json)
    | FetchAllPending
    | FetchAllFulfilled(candidates: seq<Json>)
    | FetchAllRejected(payload: Json)
    | UploadPending
    | UploadFulfilled(candidate: Json)
    | UploadRejected(payload: Json)
    | DeletePending
    | DeleteFulfilled(id: Json)
    | DeleteRejected(payload: Json)
  {
    predicate IsFetch() {
      FetchPending? || FetchFulfilled? || FetchRejected? || FetchAllPending? || FetchAllFulfilled? || FetchAllRejected?
    }
    predicate IsUpload() { UploadPending? || UploadFulfilled? || UploadRejected? }
  }

  /** `clearErrors`: only the error is cleared. */
  function ClearError(s: CandidateState): (r: CandidateState)
    ensures r.error == JNull
    ensures r.candidates == s.candidates && r.status == s.status && r.uploadStatus == s.uploadStatus
  {
    s.(error := JNull)
  }

  /** `resetStatus`: both statuses return to idle; the list and the error stay. */
  function ResetStatuses(s: CandidateState): (r: CandidateState)
    ensures r.status == Idle && r.uploadStatus == Idle
    ensures r.candidates == s.candidates && r.error == s.error
  {
    s.(status := Idle, uploadStatus := Idle)
  }

  /** The pending case of both fetches. */
  function StartFetch(s: CandidateState): (r: CandidateState)
    ensures r.status == Loading && r.error == JNull
    ensures r.candidates == s.candidates && r.uploadStatus == s.uploadStatus
  {
    s.(status := Loading, error := JNull)
  }

  /** The fulfilled case of both fetches: the fetched list replaces the candidates. */
  function FinishFetch(s: CandidateState, candidates: seq<Json>): (r: CandidateState)
    ensures r.status == Succeeded && r.candidates == candidates
    ensures r.error == s.error && r.uploadStatus == s.uploadStatus
  {
    s.(status := Succeeded, candidates := candidates)
  }

  /** The rejected case of both fetches. */
  function FailFetch(s: CandidateState, payload: Json, fallback: string): (r: CandidateState)
    requires fallback != ""
    ensures r.status == Failed && r.error == RejectionError(payload, fallback) && Truthy(r.error)
    ensures r.candidates == s.candidates && r.uploadStatus == s.uploadStatus
  {
    s.(status := Failed, error := RejectionError(payload, fallback))
  }

  /** `uploadResume.pending`: uploading, with the error cleared; the fetch status stays. */
  function StartUpload(s: CandidateState): (r: CandidateState)
    ensures r.uploadStatus == Uploading && r.error == JNull
    ensures r.candidates == s.candidates && r.status == s.status
  {
    s.(uploadStatus := Uploading, error := JNull)
  }

  /** `uploadResume.fulfilled`: the new candidate goes in front of the others. */
  function FinishUpload(s: CandidateState, candidate: Json): (r: CandidateState)
    ensures r.uploadStatus == Succeeded
    ensures |r.candidates| == |s.candidates| + 1 && r.candidates[0] == candidate && r.candidates[1..] == s.candidates
    ensures r.status == s.status && r.error == s.error
  {
    s.(uploadStatus := Succeeded, candidates := [candidate] + s.candidates)
  }

  /** `uploadResume.rejected`. */
  function FailUpload(s: CandidateState, payload: Json): (r: CandidateState)
    ensures r.uploadStatus == Failed && r.error == RejectionError(payload, "Failed to upload resume") && Truthy(r.error)
    ensures r.candidates == s.candidates && r.status == s.status
  {
    s.(uploadStatus := Failed, error := RejectionError(payload, "Failed to upload resume"))
  }

  /** `deleteCandidate.fulfilled`: exactly the candidates with another id
      remain; no status changes. A nullish candidate makes the filter throw,
      and the store keeps its state. */
  function RemoveCandidate(s: CandidateState, id: Json): (r: CandidateState)
    ensures HasNullish(s.candidates) ==> r == s
    ensures !HasNullish(s.candidates) ==>
      && (forall c :: c in r.candidates <==> c in s.candidates && !StrictEquals(Field(c, "_id"), id))
      && !HasNullish(r.candidates)
    ensures |r.candidates| <= |s.candidates|
    ensures r.status == s.status && r.uploadStatus == s.uploadStatus && r.error == s.error
  {
    if HasNullish(s.candidates) then s
    else s.(candidates := WithoutId(s.candidates, id))
  }

  /** The slice's reducer. Only fulfilled actions change the list, only the
      fetches and the reset change the fetch status, only the upload and the
      reset change the upload status, and the actions without a case change
      nothing. */
  function CandidateReducer(s: CandidateState, a: CandidateAction): (r: CandidateState)
    ensures r.candidates != s.candidates ==>
      a.FetchFulfilled? || a.FetchAllFulfilled? || a.UploadFulfilled? || a.DeleteFulfilled?
    ensures r.status != s.status ==> a.IsFetch() || a.ResetStatus?
    ensures r.uploadStatus != s.uploadStatus ==> a.IsUpload() || a.ResetStatus?
    ensures r.error != s.error ==>
      a.ClearErrors? || a.FetchPending? || a.FetchRejected? || a.FetchAllPending? || a.FetchAllRejected?
      || a.UploadPending? || a.UploadRejected?
    ensures a.DeletePending? || a.DeleteRejected? ==> r == s
  {
    match a
    case ClearErrors => ClearError(s)
    case ResetStatus => ResetStatuses(s)
    case FetchPending => StartFetch(s)
    case FetchFulfilled(candidates) => FinishFetch(s, candidates)
    case FetchRejected(payload) => FailFetch(s, payload, "Failed to fetch candidates")
    case FetchAllPending => StartFetch(s)
    case FetchAllFulfilled(candidates) => FinishFetch(s, candidates)
    case FetchAllRejected(payload) => FailFetch(s, payload, "Failed to fetch all candidates")
    case UploadPending => StartUpload(s)
    case UploadFulfilled(candidate) => FinishUpload(s, candidate)
    case UploadRejected(payload) => FailUpload(s, payload)
    case DeletePending => s
    case DeleteFulfilled(id) => RemoveCandidate(s, id)
    case DeleteRejected(_) => s
  }

  /** The reducer on the upload and delete fulfilments is the corresponding case function. */
  lemma ReducesToCase(s: CandidateState, a: CandidateAction)
    ensures a.UploadFulfilled? ==> CandidateReducer(s, a) == FinishUpload(s, a.candidate)
    ensures a.DeleteFulfilled? ==> CandidateReducer(s, a) == RemoveCandidate(s, a.id)
  {
    match a
    case UploadFulfilled(candidate) =>
    case DeleteFulfilled(id) =>
    case _ =>
  }

  /** Deleting the same candidate twice leaves the state of deleting it once. */
  lemma DeleteIdempotent(s: CandidateState, id: Json)
    ensures CandidateReducer(CandidateReducer(s, DeleteFulfilled(id)), DeleteFulfilled(id))
         == CandidateReducer(s, DeleteFulfilled(id))
  {
    var once := RemoveCandidate(s, id);
    ReducesToCase(s, DeleteFulfilled(id));
    ReducesToCase(once, DeleteFulfilled(id));
    WithoutIdIdempotent(s.candidates, id);
  }

  /** Deleting a candidate that was just uploaded brings the list back,
      provided no other candidate had its id and no entry is nullish. */
  lemma UploadThenDelete(s: CandidateState, candidate: Json, id: Json)
    requires StrictEquals(Field(candidate, "_id"), id)
    requires forall k :: 0 <= k < |s.candidates| ==> !StrictEquals(Field(s.candidates[k], "_id"), id)
    requires !HasNullish([candidate] + s.candidates)
    ensures CandidateReducer(CandidateReducer(s, UploadFulfilled(candidate)), DeleteFulfilled(id)).candidates
         == s.candidates
  {
    var uploaded := FinishUpload(s, candidate);
    ReducesToCase(s, UploadFulfilled(candidate));
    ReducesToCase(uploaded, DeleteFulfilled(id));
    WithoutIdAppend([candidate], s.candidates, id);
    assert WithoutId([candidate], id) == [];
  }
}

=== FILE: common.dfy ===
/** Small shared vocabulary: optional values, results with an error, and a few
    sequence helpers used by several modules of the model. */
module Common {

  /** A JavaScript value that may be `undefined`/`null`. */
  datatype Option<+T> = None | Some(value: T) {
    function GetOr(default: T): T {
      match this
      case Some(v) => v
      case None => default
    }
  }

  /** The outcome of an operation that can fail with an error value. */
  datatype Result<+R, +E> = Success(value: R) | Failure(error: E)

  /** Keeps the elements of `xs` that satisfy `keep`, in order (Array.prototype.filter). */
  function Filter<T(!new)>(xs: seq<T>, keep: T -> bool): (r: seq<T>)
    ensures |r| <= |xs|
    ensures forall k :: 0 <= k < |r| ==> keep(r[k])
    ensures (forall k :: 0 <= k < |xs| ==> keep(xs[k])) ==> r == xs
    ensures (forall k :: 0 <= k < |xs| ==> !keep(xs[k])) ==> r == []
  {
    if xs == [] then []
    else if keep(xs[0]) then [xs[0]] + Filter(xs[1..], keep)
    else Filter(xs[1..], keep)
  }

  /** The filtered list holds exactly the elements that pass the test. */
  lemma {:induction false} FilterMembers<T(!new)>(xs: seq<T>, keep: T -> bool)
    ensures forall x :: x in Filter(xs, keep) <==> x in xs && keep(x)
  {
    if xs != [] {
      FilterMembers(xs[1..], keep);
      assert xs == [xs[0]] + xs[1..];
    }
  }

  /** Filtering distributes over concatenation: filtering keeps relative order. */
  lemma {:induction false} FilterAppend<T(!new)>(a: seq<T>, b: seq<T>, keep: T -> bool)
    ensures Filter(a + b, keep) == Filter(a, keep) + Filter(b, keep)
  {
    if a == [] {
      assert a + b == b;
    } else {
      assert (a + b)[1..] == a[1..] + b;
      FilterAppend(a[1..], b, keep);
    }
  }

  /** The first element kept by a filter is the first element that passes the test. */
  lemma {:induction false} FilterFirst<T(!new)>(xs: seq<T>, keep: T -> bool, k: nat)
    requires k < |xs| && keep(xs[k])
    requires forall j :: 0 <= j < k ==> !keep(xs[j])
    ensures Filter(xs, keep) != [] && Filter(xs, keep)[0] == xs[k]
  {
    if k > 0 {
      FilterFirst(xs[1..], keep, k - 1);
    }
  }

  /** Filtering twice with the same test is filtering once. */
  lemma FilterIdempotent<T(!new)>(xs: seq<T>, keep: T -> bool)
    ensures Filter(Filter(xs, keep), keep) == Filter(xs, keep)
  {
  }

  /** Two filters can be applied in either order. */
  lemma {:induction false} FilterCommutes<T(!new)>(xs: seq<T>, p: T -> bool, q: T -> bool)
    ensures Filter(Filter(xs, p), q) == Filter(Filter(xs, q), p)
  {
    if xs != [] {
      FilterCommutes(xs[1..], p, q);
    }
  }

  /** The number of elements of `xs` satisfying `p`. */
  function CountWhere<T(!new)>(xs: seq<T>, p: T -> bool): (n: nat)
    ensures n <= |xs|
  {
    if xs == [] then 0 else (if p(xs[0]) then 1 else 0) + CountWhere(xs[1..], p)
  }

  /** The count is zero when nothing passes the test and everything when all pass. */
  lemma {:induction false} CountWhereExtremes<T(!new)>(xs: seq<T>, p: T -> bool)
    ensures (forall k :: 0 <= k < |xs| ==> !p(xs[k])) ==> CountWhere(xs, p) == 0
    ensures (forall k :: 0 <= k < |xs| ==> p(xs[k])) ==> CountWhere(xs, p) == |xs|
  {
    if xs != [] {
      CountWhereExtremes(xs[1..], p);
      assert forall k :: 0 <= k < |xs[1..]| ==> xs[1..][k] == xs[k + 1];
    }
  }

  /** Counting the elements that pass a test is measuring the filtered list. */
  lemma {:induction false} CountWhereIsFilterLength<T(!new)>(xs: seq<T>, p: T -> bool)
    ensures CountWhere(xs, p) == |Filter(xs, p)|
  {
    if xs != [] {
      CountWhereIsFilterLength(xs[1..], p);
    }
  }

  /** `Math.round`: the nearest integer, halves rounded towards +infinity. */
  function Round(x: real): (r: int)
    ensures r as real - 0.5 <= x < r as real + 0.5
  {
    (x + 0.5).Floor
  }

  /** Rounding is monotone. */
  lemma RoundMonotone(x: real, y: real)
    requires x <= y
    ensures Round(x) <= Round(y)
  {
  }

  /** Rounding keeps a value inside an integer interval. */
  lemma RoundBetween(x: real, lo: int, hi: int)
    requires lo as real <= x <= hi as real
    ensures lo <= Round(x) <= hi
  {
  }

  function Min(a: int, b: int): int { if a <= b then a else b }

  /** `n / d * 100` as a real number. */
  function Percent(n: nat, d: nat): (r: real)
    requires d > 0
    ensures r >= 0.0
    ensures n <= d ==> r <= 100.0
    ensures n == d ==> r == 100.0
    ensures n == 0 ==> r == 0.0
  {
    PercentBound(n, d);
    (n as real / d as real) * 100.0
  }

  /** A percentage scaled back by its denominator is a hundred times its numerator. */
  lemma PercentTimes(n: nat, d: nat)
    requires d > 0
    ensures Percent(n, d) * d as real == 100.0 * n as real
    ensures Percent(n, d) == 0.0 <==> n == 0
  {
    var q := n as real / d as real;
    assert q * d as real == n as real;
    assert Percent(n, d) == q * 100.0;
    assert (q * 100.0) * d as real == 100.0 * (q * d as real);
  }

  lemma PercentBound(n: nat, d: nat)
    requires d > 0
    ensures n <= d ==> n as real / d as real <= 1.0
    ensures n as real / d as real >= 0.0
  {
  }
}

=== FILE: contact.dfy ===
/** The contact heuristics of the NLP processor: the first e-mail address in
    the resume, and the first non-blank line as the candidate's name. */
module Contact {
  import opened Common
  import opened Text

  const DefaultEmail: string := "unknown@example.com"
  const DefaultName: string := "Unknown Name"

  /** `[a-zA-Z0-9._%+-]`, the characters of the local part. */
  predicate LocalChar(c: char) {
    IsAsciiLetter(c) || IsDigit(c) || c == '.' || c == '_' || c == '%' || c == '+' || c == '-'
  }

  /** `[a-zA-Z0-9.-]`, the characters of the domain. */
  predicate DomainChar(c: char) {
    IsAsciiLetter(c) || IsDigit(c) || c == '.' || c == '-'
  }

  /** `s[i..t]` is `local@domain.tld`, split at the `@` in position `a` and the
      dot in position `d`: a non-empty local part, a non-empty domain and a
      top-level domain of at least two letters. */
  ghost predicate EmailSplit(s: string, i: int, a: int, d: int, t: int) {
    && 0 <= i < a && a + 1 < d && d + 3 <= t <= |s|
    && AllIn(s, i, a, LocalChar) && s[a] == '@'
    && AllIn(s, a + 1, d, DomainChar) && s[d] == '.'
    && AllIn(s, d + 1, t, IsAsciiLetter)
  }

  /** Reference semantics of the e-mail pattern: it matches `s[i..t]`. */
  ghost predicate EmailAt(s: string, i: int, t: int) {
    exists a, d :: EmailSplit(s, i, a, d, t)
  }

  /** The match a backtracking regular-expression engine reports: the
      leftmost start, and at that start the longest match. */
  ghost predicate FirstEmail(s: string, i: int, t: int) {
    && EmailAt(s, i, t)
    && (forall i', t' :: 0 <= i' < i ==> !EmailAt(s, i', t'))
    && (forall t' :: t < t' ==> !EmailAt(s, i, t'))
  }

  /** A dot that is followed by two letters. */
  predicate DotBeforeLetters(s: string, d: int) {
    0 <= d && d + 3 <= |s| && s[d] == '.' && IsAsciiLetter(s[d + 1]) && IsAsciiLetter(s[d + 2])
  }

  /** The last position in `[lo, hi)` holding a dot followed by two letters:
      where backtracking of the greedy domain part first succeeds. */
  function LastDot(s: string, lo: nat, hi: nat): (r: Option<nat>)
    requires lo <= hi <= |s|
    ensures r.Some? ==> lo <= r.value < hi && DotBeforeLetters(s, r.value)
    ensures r.Some? ==> forall d :: r.value < d < hi ==> !DotBeforeLetters(s, d)
    ensures r.None? ==> forall d :: lo <= d < hi ==> !DotBeforeLetters(s, d)
    decreases hi - lo
  {
    if hi == lo then None
    else if DotBeforeLetters(s, hi - 1) then Some(hi - 1)
    else LastDot(s, lo, hi - 1)
  }

  /** The e-mail pattern tried at start `i`: the end of the match, if any. */
  function MatchFrom(s: string, i: nat): Option<nat>
    requires i <= |s|
  {
    var a := RunEnd(s, i, LocalChar);
    if a == i || a == |s| || s[a] != '@' then None
    else
      var e := RunEnd(s, a + 1, DomainChar);
      if e < a + 2 then None
      else
        match LastDot(s, a + 2, e)
        case None => None
        case Some(d) => Some(RunEnd(s, d + 1, IsAsciiLetter))
  }

  /** What `MatchFrom` reports is a match. */
  lemma MatchFromSound(s: string, i: nat)
    requires i <= |s|
    ensures MatchFrom(s, i).Some? ==> EmailAt(s, i, MatchFrom(s, i).value)
  {
    if MatchFrom(s, i).Some? {
      var a := RunEnd(s, i, LocalChar);
      var e := RunEnd(s, a + 1, DomainChar);
      var d := LastDot(s, a + 2, e).value;
      var t := RunEnd(s, d + 1, IsAsciiLetter);
      RunEndAtLeast(s, d + 1, d + 3, IsAsciiLetter);
      assert EmailSplit(s, i, a, d, t);
    }
  }

  /** `MatchFrom` once its local part, domain run and last dot are known. */
  lemma MatchFromAt(s: string, i: nat, a: nat, d: nat)
    requires i < a < |s| && RunEnd(s, i, LocalChar) == a && s[a] == '@'
    requires a + 2 <= RunEnd(s, a + 1, DomainChar)
    requires LastDot(s, a + 2, RunEnd(s, a + 1, DomainChar)) == Some(d)
    ensures MatchFrom(s, i) == Some(RunEnd(s, d + 1, IsAsciiLetter))
  {
  }

  /** Every match at start `i` is found by `MatchFrom`, and is no longer than
      what it reports. */
  lemma MatchFromComplete(s: string, i: nat, a: int, d: int, t: int)
    requires i <= |s| && EmailSplit(s, i, a, d, t)
    ensures MatchFrom(s, i).Some? && t <= MatchFrom(s, i).value
  {
    RunEndAt(s, i, a, LocalChar);
    var e := RunEnd(s, a + 1, DomainChar);
    assert DomainChar(s[d]);
    RunEndAtLeast(s, a + 1, d + 1, DomainChar);
    assert DotBeforeLetters(s, d);
    var last := LastDot(s, a + 2, e);
    assert last.Some?;
    var d' := last.value;
    MatchFromAt(s, i, a, d');
    if d < d' {
      assert !IsAsciiLetter(s[d']);
      assert t <= d';
    } else {
      RunEndAtLeast(s, d + 1, t, IsAsciiLetter);
    }
  }

  /** The regular-expression search, trying starts from `i` on: start and end
      of the first match. */
  function Scan(s: string, i: nat): (r: Option<(nat, nat)>)
    requires i <= |s|
    ensures r.Some? ==> i <= r.value.0 && EmailAt(s, r.value.0, r.value.1)
    ensures r.Some? ==> forall i', t' :: i <= i' < r.value.0 ==> !EmailAt(s, i', t')
    ensures r.Some? ==> forall t' :: r.value.1 < t' ==> !EmailAt(s, r.value.0, t')
    ensures r.None? ==> forall i', t' :: i <= i' ==> !EmailAt(s, i', t')
    decreases |s| - i
  {
    MatchFromSound(s, i);
    forall t, a, d | EmailSplit(s, i, a, d, t)
      ensures MatchFrom(s, i).Some? && t <= MatchFrom(s, i).value
    {
      MatchFromComplete(s, i, a, d, t);
    }
    if i == |s| then None
    else match MatchFrom(s, i)
      case Some(t) => Some((i, t))
      case None => Scan(s, i + 1)
  }

  /** `extractEmail`: the first match of the e-mail pattern, or a placeholder;
      either way an address with an `@`. */
  function ExtractEmail(text: string): (r: string)
    ensures '@' in r
  {
    match Scan(text, 0)
    case None => DefaultEmail
    case Some((i, t)) =>
      assert '@' in text[i..t] by {
        var a, d :| EmailSplit(text, i, a, d, t);
        assert text[i..t][a - i] == '@';
      }
      text[i..t]
  }

  /** The address extracted is the leftmost-longest match of the pattern. */
  lemma ExtractEmailIsFirstMatch(text: string, i: int, t: int)
    requires FirstEmail(text, i, t)
    ensures ExtractEmail(text) == text[i..t]
  {
    var scan := Scan(text, 0);
    assert scan.Some?;
    assert scan.value.0 == i;
    assert scan.value.1 == t;
  }

  /** An address that ends the text and follows a label (a prefix without `@`
      ending in a character the local part cannot contain) is what is
      extracted, whatever the prefix says. */
  lemma AddressAfterLabel(prefix: string, address: string)
    requires prefix != [] && !LocalChar(prefix[|prefix| - 1]) && '@' !in prefix
    requires EmailAt(address, 0, |address|)
    ensures ExtractEmail(prefix + address) == address
  {
    var s := prefix + address;
    var n := |prefix|;
    var a, d :| EmailSplit(address, 0, a, d, |address|);
    assert EmailSplit(s, n, n + a, n + d, |s|) by {
      forall k | 0 <= k < |address|
        ensures s[n + k] == address[k]
      {
      }
    }
    assert !LocalChar(s[n - 1]) by {
      assert s[n - 1] == prefix[n - 1];
    }
    assert forall k :: 0 <= k < n ==> s[k] == prefix[k] && s[k] != '@';
    forall i', t' | 0 <= i' < n
      ensures !EmailAt(s, i', t')
    {
      forall a', d' | EmailSplit(s, i', a', d', t')
        ensures false
      {
      }
    }
    ExtractEmailIsFirstMatch(s, n, |s|);
    assert s[n..|s|] == address;
  }

  /** "contact: jane@x.co" gives "jane@x.co". */
  lemma LabelledAddress()
    ensures ExtractEmail("contact: " + "jane@x.co") == "jane@x.co"
  {
    var address := "jane@x.co";
    var prefix := "contact: ";
    assert EmailSplit(address, 0, 4, 6, 9);
    assert '@' !in prefix by {
      assert prefix == ['c', 'o', 'n', 't', 'a', 'c', 't', ':', ' '];
    }
    AddressAfterLabel(prefix, address);
  }

  /** Text where the pattern matches nowhere yields the placeholder address. */
  lemma NoMatchGivesDefault(text: string)
    requires forall i, t :: !EmailAt(text, i, t)
    ensures ExtractEmail(text) == DefaultEmail
  {
    assert Scan(text, 0).None?;
  }

  /** Text without an `@` yields the placeholder address. */
  lemma NoAtSignGivesDefault(text: string)
    requires '@' !in text
    ensures ExtractEmail(text) == DefaultEmail
  {
    forall i, t ensures !EmailAt(text, i, t) {
      forall a, d ensures !EmailSplit(text, i, a, d, t) {
        if 0 <= a < |text| {
          assert text[a] in text;
        }
      }
    }
    NoMatchGivesDefault(text);
  }

  /** Every line trimmed (`lines.map(line => line.trim())`). */
  function TrimLines(lines: seq<string>): (r: seq<string>)
    ensures |r| == |lines|
    ensures forall k :: 0 <= k < |r| ==> r[k] == Trim(lines[k])
  {
    seq(|lines|, k requires 0 <= k < |lines| => Trim(lines[k]))
  }

  predicate NonEmptyLine(line: string) {
    |line| > 0
  }

  /** Line `k` is the first line that is not blank. */
  predicate FirstNonBlankAt(lines: seq<string>, k: int) {
    0 <= k < |lines| && Trim(lines[k]) != "" && forall j :: 0 <= j < k ==> Trim(lines[j]) == ""
  }

  /** Every line is blank. */
  predicate AllBlank(lines: seq<string>) {
    forall k :: 0 <= k < |lines| ==> Trim(lines[k]) == ""
  }

  /** The lines of `text` that are not blank, trimmed, in order. The first
      is the trim of the first line that is not blank; there is none only
      when every line is blank. */
  function NonBlankLines(text: string): (r: seq<string>)
    ensures forall k :: 0 <= k < |r| ==> r[k] != "" && IsTrimmed(r[k]) && '\n' !in r[k]
    ensures var lines := Split(text, '\n');
      forall k :: FirstNonBlankAt(lines, k) ==> r != [] && r[0] == Trim(lines[k])
    ensures var lines := Split(text, '\n');
      AllBlank(lines) ==> r == []
  {
    var lines := Split(text, '\n');
    var trimmed := TrimLines(lines);
    var nonBlank := Filter(trimmed, NonEmptyLine);
    NonBlankLinesFacts(lines, trimmed, nonBlank);
    nonBlank
  }

  lemma NonBlankLinesFacts(lines: seq<string>, trimmed: seq<string>, nonBlank: seq<string>)
    requires forall k :: 0 <= k < |lines| ==> '\n' !in lines[k]
    requires trimmed == TrimLines(lines) && nonBlank == Filter(trimmed, NonEmptyLine)
    ensures forall k :: 0 <= k < |nonBlank| ==> nonBlank[k] != "" && IsTrimmed(nonBlank[k]) && '\n' !in nonBlank[k]
    ensures forall k :: FirstNonBlankAt(lines, k) ==> nonBlank != [] && nonBlank[0] == Trim(lines[k])
    ensures AllBlank(lines) ==> nonBlank == []
  {
    forall k | FirstNonBlankAt(lines, k)
      ensures nonBlank != [] && nonBlank[0] == Trim(lines[k])
    {
      FilterFirst(trimmed, NonEmptyLine, k);
    }
    FilterMembers(trimmed, NonEmptyLine);
    forall k | 0 <= k < |nonBlank|
      ensures nonBlank[k] != "" && IsTrimmed(nonBlank[k]) && '\n' !in nonBlank[k]
    {
      assert NonEmptyLine(nonBlank[k]);
      assert nonBlank[k] in nonBlank;
      var i :| 0 <= i < |trimmed| && trimmed[i] == nonBlank[k];
      assert '\n' !in lines[i];
    }
    if AllBlank(lines) {
      assert forall k :: 0 <= k < |trimmed| ==> !NonEmptyLine(trimmed[k]);
    }
  }

  /** `extractName`: the first line that is not blank, trimmed, or a placeholder. */
  function ExtractName(text: string): (r: string)
    ensures r != "" && IsTrimmed(r) && '\n' !in r
    ensures var lines := Split(text, '\n');
      forall k :: FirstNonBlankAt(lines, k) ==> r == Trim(lines[k])
    ensures var lines := Split(text, '\n');
      AllBlank(lines) ==> r == DefaultName
  {
    var nonBlank := NonBlankLines(text);
    if |nonBlank| > 0 then nonBlank[0]
    else
      DefaultNameIsALine();
      DefaultName
  }

  /** The placeholder name is itself a trimmed, non-empty line. */
  lemma DefaultNameIsALine()
    ensures DefaultName != "" && IsTrimmed(DefaultName) && '\n' !in DefaultName
  {
    var s := DefaultName;
    assert s[0] == 'U' && s[|s| - 1] == 'e';
    assert forall k :: 0 <= k < |s| ==> s[k] != '\n';
  }

  /** A blank first line is skipped. */
  lemma BlankLineSkipped(blank: string, rest: string)
    requires Trim(blank) == "" && '\n' !in blank
    ensures ExtractName(blank + "\n" + rest) == ExtractName(rest)
  {
    var lines' := Split(rest, '\n');
    assert Split(blank + "\n" + rest, '\n') == [blank] + lines' by {
      assert blank + "\n" + rest == blank + ("\n" + rest);
      SplitPrefix(blank, "\n" + rest, '\n');
    }
    var trimmed' := TrimLines(lines');
    assert TrimLines([blank] + lines') == [""] + trimmed' by {
      TrimLinesCons(blank, lines');
    }
    assert Filter([""] + trimmed', NonEmptyLine) == Filter(trimmed', NonEmptyLine) by {
      assert ([""] + trimmed')[1..] == trimmed';
    }
  }

  lemma TrimLinesCons(line: string, lines: seq<string>)
    ensures TrimLines([line] + lines) == [Trim(line)] + TrimLines(lines)
  {
    assert forall k :: 0 < k < |lines| + 1 ==> ([line] + lines)[k] == lines[k - 1];
  }

  /** "\n\nJane Doe\n..." gives "Jane Doe". */
  lemma NameSkipsBlankLines(name: string, rest: string)
    requires name != "" && IsTrimmed(name) && '\n' !in name
    ensures ExtractName("\n\n" + name + "\n" + rest) == name
  {
    var named := name + "\n" + rest;
    assert "\n\n" + name + "\n" + rest == "" + "\n" + ("" + "\n" + named);
    BlankLineSkipped("", "" + "\n" + named);
    BlankLineSkipped("", named);
    NameIsFirstLineWhatever(name, rest);
  }

  /** Whatever the first non-blank line holds (a phone number, say), it is taken as the name. */
  lemma NameIsFirstLineWhatever(line: string, rest: string)
    requires Trim(line) != "" && '\n' !in line
    ensures ExtractName(line + "\n" + rest) == Trim(line)
  {
    var text := line + "\n" + rest;
    assert text == line + ("\n" + rest);
    SplitPrefix(line, "\n" + rest, '\n');
    var lines := Split(text, '\n');
    assert lines[0] == line;
    assert FirstNonBlankAt(lines, 0);
  }
}

=== FILE: dashboard.dfy ===
/** The recruiter dashboard's figures, computed from the jobs and candidates
    in the store: the totals, the average match score, the number of
    candidates per job, the five best candidates, and the colour of a
    score badge. */
module Dashboard {
  import opened Common
  import opened Redux

  /** A candidate's `matchScore` when it is a number. */
  function NumericScore(c: Json): Option<int> {
    var m := Field(c, "matchScore");
    if m.JNumber? then Some(m.n) else None
  }

  /** `c.matchScore || 0`. */
  function ScoreOf(c: Json): (r: int)
    ensures NumericScore(c).Some? ==> r == NumericScore(c).value
    ensures NumericScore(c).None? ==> r == 0
  {
    NumericScore(c).GetOr(0)
  }

  /** The sum of the scores (`reduce((sum, c) => sum + (c.matchScore || 0), 0)`). */
  function ScoreSum(cs: seq<Json>): int {
    if cs == [] then 0 else ScoreSum(cs[..|cs| - 1]) + ScoreOf(cs[|cs| - 1])
  }

  /** Every score is a percentage. */
  predicate AllPercentages(cs: seq<Json>) {
    forall k :: 0 <= k < |cs| ==> 0 <= ScoreOf(cs[k]) <= 100
  }

  /** Percentages sum to at most 100 per candidate. */
  lemma {:induction false} ScoreSumBounds(cs: seq<Json>)
    requires AllPercentages(cs)
    ensures 0 <= ScoreSum(cs) <= 100 * |cs|
  {
    if cs != [] {
      var init := cs[..|cs| - 1];
      assert forall k :: 0 <= k < |init| ==> init[k] == cs[k];
      ScoreSumBounds(init);
      assert 0 <= ScoreOf(cs[|cs| - 1]) <= 100;
    }
  }

  /** `avgMatchScore`: the sum over `(count || 1)`, so 0 without candidates. */
  function AverageScore(cs: seq<Json>): (r: real)
    ensures cs == [] ==> r == 0.0
    ensures cs != [] ==> r * |cs| as real == ScoreSum(cs) as real
    ensures AllPercentages(cs) ==> 0.0 <= r <= 100.0
  {
    var n := if |cs| == 0 then 1 else |cs|;
    QuotientFacts(ScoreSum(cs), n);
    assert AllPercentages(cs) ==> 0 <= ScoreSum(cs) <= 100 * n by {
      if AllPercentages(cs) {
        ScoreSumBounds(cs);
      }
    }
    ScoreSum(cs) as real / n as real
  }

  /** `sum / n` undoes multiplication by `n`, and lies in `[0, 100]` when `sum` lies in `[0, 100 * n]`. */
  lemma QuotientFacts(sum: int, n: int)
    requires n >= 1
    ensures (sum as real / n as real) * n as real == sum as real
    ensures 0 <= sum <= 100 * n ==> 0.0 <= sum as real / n as real <= 100.0
  {
    if 0 <= sum <= 100 * n {
      assert sum as real <= n as real * 100.0;
    }
  }

  /** One row of `candidatesPerJob`. */
  datatype JobCount = JobCount(jobId: Json, jobTitle: Json, count: nat)

  /** `c.job === jobId`. */
  predicate AppliedTo(c: Json, jobId: Json) {
    StrictEquals(Field(c, "job"), jobId)
  }

  /** The number of candidates for one job. */
  function CountFor(cs: seq<Json>, jobId: Json): (n: nat)
    ensures n <= |cs|
  {
    CountWhere(cs, c => AppliedTo(c, jobId))
  }

  /** `candidatesPerJob`: one row per job, in job order. */
  function CandidatesPerJob(jobs: seq<Json>, cs: seq<Json>): (r: seq<JobCount>)
    ensures |r| == |jobs|
    ensures forall k :: 0 <= k < |jobs| ==>
      r[k].jobId == Field(jobs[k], "_id") && r[k].jobTitle == Field(jobs[k], "title")
      && r[k].count == CountFor(cs, Field(jobs[k], "_id"))
  {
    seq(|jobs|, k requires 0 <= k < |jobs| =>
      JobCount(Field(jobs[k], "_id"), Field(jobs[k], "title"), CountFor(cs, Field(jobs[k], "_id"))))
  }

  /** The sum of the counts of a `candidatesPerJob` table. */
  function TotalCount(rows: seq<JobCount>): nat {
    if rows == [] then 0 else rows[0].count + TotalCount(rows[1..])
  }

  /** The job ids are pairwise not strictly equal. */
  predicate DistinctIds(jobs: seq<Json>) {
    forall i, j :: 0 <= i < j < |jobs| ==> !StrictEquals(Field(jobs[i], "_id"), Field(jobs[j], "_id"))
  }

  /** A candidate applied to one of the jobs. */
  predicate AppliedToAny(c: Json, jobs: seq<Json>) {
    exists k :: 0 <= k < |jobs| && AppliedTo(c, Field(jobs[k], "_id"))
  }

  /** Counting with a test that is the disjoint union of two tests adds the counts. */
  lemma {:induction false} CountDisjointUnion(xs: seq<Json>, p: Json -> bool, q: Json -> bool, pq: Json -> bool)
    requires forall x :: pq(x) <==> p(x) || q(x)
    requires forall x :: !(p(x) && q(x))
    ensures CountWhere(xs, pq) == CountWhere(xs, p) + CountWhere(xs, q)
  {
    if xs != [] {
      CountDisjointUnion(xs[1..], p, q, pq);
    }
  }

  /** With distinct job ids, the per-job counts add up to the number of
      candidates who applied to one of the jobs; so they never add up to more
      than the number of candidates. */
  lemma {:induction false} PerJobCountsAddUp(jobs: seq<Json>, cs: seq<Json>)
    requires DistinctIds(jobs)
    ensures TotalCount(CandidatesPerJob(jobs, cs)) == CountWhere(cs, c => AppliedToAny(c, jobs))
    ensures TotalCount(CandidatesPerJob(jobs, cs)) <= |cs|
  {
    if jobs == [] {
      CountNoneMatch(cs, c => AppliedToAny(c, jobs));
    } else {
      var rest := jobs[1..];
      var id := Field(jobs[0], "_id");
      assert DistinctIds(rest);
      PerJobCountsAddUp(rest, cs);
      assert CandidatesPerJob(jobs, cs)[1..] == CandidatesPerJob(rest, cs);
      forall c ensures AppliedToAny(c, jobs) <==> AppliedTo(c, id) || AppliedToAny(c, rest) {
        if AppliedToAny(c, rest) {
          var k :| 0 <= k < |rest| && AppliedTo(c, Field(rest[k], "_id"));
          assert rest[k] == jobs[k + 1];
        }
        if AppliedToAny(c, jobs) {
          var k :| 0 <= k < |jobs| && AppliedTo(c, Field(jobs[k], "_id"));
          if k > 0 { assert jobs[k] == rest[k - 1]; }
        }
        if AppliedTo(c, id) { assert AppliedTo(c, Field(jobs[0], "_id")); }
      }
      forall c ensures !(AppliedTo(c, id) && AppliedToAny(c, rest)) {
        if AppliedToAny(c, rest) {
          var k :| 0 <= k < |rest| && AppliedTo(c, Field(rest[k], "_id"));
          assert rest[k] == jobs[k + 1];
          assert !StrictEquals(Field(jobs[0], "_id"), Field(jobs[k + 1], "_id"));
        }
      }
      CountDisjointUnion(cs, c => AppliedTo(c, id), c => AppliedToAny(c, rest), c => AppliedToAny(c, jobs));
    }
  }

  lemma CountNoneMatch(xs: seq<Json>, p: Json -> bool)
    requires forall x :: !p(x)
    ensures CountWhere(xs, p) == 0
  {
    CountWhereExtremes(xs, p);
  }

  /** Non-increasing by score. */
  predicate SortedByScore(xs: seq<Json>) {
    forall i, j :: 0 <= i < j < |xs| ==> ScoreOf(xs[i]) >= ScoreOf(xs[j])
  }

  /** The test "scores exactly `v`". */
  function ScoreIs(v: int): Json -> bool {
    c => ScoreOf(c) == v
  }

  /** The candidates with score `v`, in their order. */
  function WithScore(xs: seq<Json>, v: int): seq<Json> {
    Filter(xs, ScoreIs(v))
  }

  /** A sorted list stays sorted when an element scoring at least its first is put in front. */
  lemma ConsSorted(h: Json, t: seq<Json>)
    requires SortedByScore(t)
    requires t == [] || ScoreOf(h) >= ScoreOf(t[0])
    ensures SortedByScore([h] + t)
  {
    var r := [h] + t;
    forall i, j | 0 <= i < j < |r|
      ensures ScoreOf(r[i]) >= ScoreOf(r[j])
    {
      if i == 0 {
        assert r[j] == t[j - 1];
        assert ScoreOf(t[0]) >= ScoreOf(t[j - 1]) || j == 1;
      }
    }
  }

  /** Inserts `x` into a sorted list after every element scoring at least as
      much, so that among equal scores the earlier element stays first. */
  function Insert(sorted: seq<Json>, x: Json): (r: seq<Json>)
    requires SortedByScore(sorted)
    ensures SortedByScore(r)
    ensures multiset(r) == multiset(sorted) + multiset{x}
    ensures |r| == |sorted| + 1
    ensures r[0] == x || (sorted != [] && r[0] == sorted[0])
  {
    if sorted == [] then [x]
    else if ScoreOf(x) > ScoreOf(sorted[0]) then
      ConsSorted(x, sorted);
      [x] + sorted
    else
      var tail := Insert(sorted[1..], x);
      assert sorted == [sorted[0]] + sorted[1..];
      ConsSorted(sorted[0], tail);
      [sorted[0]] + tail
  }

  /** Inserting keeps, for every score, the order of the candidates with that
      score, and puts `x` after those already there. */
  lemma {:induction false} InsertStable(sorted: seq<Json>, x: Json, v: int)
    requires SortedByScore(sorted)
    ensures WithScore(Insert(sorted, x), v) == WithScore(sorted, v) + (if ScoreOf(x) == v then [x] else [])
  {
    var p := ScoreIs(v);
    SingletonFilter(x, p);
    if sorted == [] {
      assert Insert(sorted, x) == [x];
    } else if ScoreOf(x) > ScoreOf(sorted[0]) {
      assert Insert(sorted, x) == [x] + sorted;
      FilterAppend([x], sorted, p);
      if ScoreOf(x) == v {
        assert forall k :: 0 <= k < |sorted| ==> !p(sorted[k]);
      }
    } else {
      var rest := sorted[1..];
      var head := Filter([sorted[0]], p);
      var added := if ScoreOf(x) == v then [x] else [];
      InsertStable(rest, x, v);
      assert Insert(sorted, x) == [sorted[0]] + Insert(rest, x);
      WithScoreCons(sorted[0], Insert(rest, x), v);
      WithScoreSplit(sorted, v);
      ConcatAssoc(head, WithScore(rest, v), added);
    }
  }

  /** The candidates with score `v` of a list with a known first element. */
  lemma WithScoreCons(h: Json, t: seq<Json>, v: int)
    ensures WithScore([h] + t, v) == Filter([h], ScoreIs(v)) + WithScore(t, v)
  {
    FilterAppend([h], t, ScoreIs(v));
  }

  lemma WithScoreSplit(xs: seq<Json>, v: int)
    requires xs != []
    ensures WithScore(xs, v) == Filter([xs[0]], ScoreIs(v)) + WithScore(xs[1..], v)
  {
    assert xs == [xs[0]] + xs[1..];
    WithScoreCons(xs[0], xs[1..], v);
  }

  lemma ConcatAssoc<T>(a: seq<T>, b: seq<T>, c: seq<T>)
    ensures a + (b + c) == (a + b) + c
  {
  }

  /** Filtering a one-element list keeps it exactly when its element passes. */
  lemma SingletonFilter<T(!new)>(x: T, keep: T -> bool)
    ensures Filter([x], keep) == if keep(x) then [x] else []
  {
    assert [x][1..] == [];
  }

  /** `[...candidates].sort((a, b) => (b.matchScore || 0) - (a.matchScore || 0))`:
      a stable sort by descending score of a copy of the list. */
  function SortByScore(xs: seq<Json>): (r: seq<Json>)
    ensures SortedByScore(r)
    ensures multiset(r) == multiset(xs)
    ensures |r| == |xs|
  {
    if xs == [] then []
    else
      assert xs == xs[..|xs| - 1] + [xs[|xs| - 1]];
      Insert(SortByScore(xs[..|xs| - 1]), xs[|xs| - 1])
  }

  /** The sort is stable: for every score, the candidates with that score
      keep their original order. */
  lemma {:induction false} SortStable(xs: seq<Json>, v: int)
    ensures WithScore(SortByScore(xs), v) == WithScore(xs, v)
  {
    if xs != [] {
      var init := xs[..|xs| - 1];
      var x := xs[|xs| - 1];
      assert xs == init + [x];
      assert SortByScore(xs) == Insert(SortByScore(init), x);
      SortStable(init, v);
      InsertStable(SortByScore(init), x, v);
      FilterAppend(init, [x], ScoreIs(v));
      SingletonFilter(x, ScoreIs(v));
    }
  }

  /** `topCandidates`: the first five of the sorted copy. */
  function TopCandidates(cs: seq<Json>): (r: seq<Json>)
    ensures |r| == Min(5, |cs|)
    ensures SortedByScore(r)
    ensures forall c :: c in r ==> c in cs
    ensures multiset(r) <= multiset(cs)
    ensures forall c :: c in cs && c !in r ==> forall k :: 0 <= k < |r| ==> ScoreOf(c) <= ScoreOf(r[k])
  {
    var sorted := SortByScore(cs);
    PrefixOfSorted(cs, sorted, Min(5, |cs|));
    assert sorted == sorted[..Min(5, |cs|)] + sorted[Min(5, |cs|)..];
    sorted[..Min(5, |cs|)]
  }

  /** Ties at the cut go to the earlier candidates: for every score, the
      candidates kept with that score are the first ones with it in the
      original list. */
  lemma TopCandidatesKeepsEarliest(cs: seq<Json>, v: int)
    ensures WithScore(TopCandidates(cs), v) <= WithScore(cs, v)
  {
    var sorted := SortByScore(cs);
    var n := Min(5, |cs|);
    assert sorted == sorted[..n] + sorted[n..];
    FilterAppend(sorted[..n], sorted[n..], ScoreIs(v));
    SortStable(cs, v);
  }

  /** A prefix of a sorted permutation of `cs` is drawn from `cs` and
      outscores every element of `cs` it leaves out. */
  lemma PrefixOfSorted(cs: seq<Json>, sorted: seq<Json>, n: nat)
    requires SortedByScore(sorted) && multiset(sorted) == multiset(cs) && n <= |sorted|
    ensures forall c :: c in sorted[..n] ==> c in cs
    ensures forall c :: c in cs && c !in sorted[..n] ==>
      forall k :: 0 <= k < n ==> ScoreOf(c) <= ScoreOf(sorted[..n][k])
  {
    var r := sorted[..n];
    var rest := sorted[n..];
    assert sorted == r + rest;
    forall c | c in r
      ensures c in cs
    {
      assert c in multiset(sorted);
    }
    forall c | c in cs && c !in r
      ensures forall k :: 0 <= k < n ==> ScoreOf(c) <= ScoreOf(r[k])
    {
      assert c in multiset(sorted);
      assert c in multiset(rest);
      var i :| 0 <= i < |rest| && rest[i] == c;
      assert sorted[n + i] == c;
    }
  }

  /** The colour of a score badge. */
  datatype Badge = Green | Yellow | Red

  /** `score > 75 ? green : score > 50 ? yellow : red`; a missing score
      compares as false both times and is red. */
  function BadgeFor(score: Option<int>): (r: Badge)
    ensures score.None? ==> r == Red
    ensures score.Some? ==> (r == Green <==> score.value > 75)
    ensures score.Some? ==> (r == Yellow <==> 50 < score.value <= 75)
    ensures score.Some? ==> (r == Red <==> score.value <= 50)
  {
    match score
    case None => Red
    case Some(n) => if n > 75 then Green else if n > 50 then Yellow else Red
  }

  function BadgeRank(b: Badge): nat {
    match b
    case Red => 0
    case Yellow => 1
    case Green => 2
  }

  /** A higher score never gets a worse badge. */
  lemma BadgeMonotone(a: int, b: int)
    requires a <= b
    ensures BadgeRank(BadgeFor(Some(a))) <= BadgeRank(BadgeFor(Some(b)))
  {
  }

  /** The dashboard's figures. */
  datatype Metrics = Metrics(
    totalJobs: nat,
    totalCandidates: nat,
    avgMatchScore: real,
    candidatesPerJob: seq<JobCount>,
    topCandidates: seq<Json>)

  /** The figures the dashboard renders. The render reads `matchScore` of
      every candidate and `_id` of every job, so a `null` or `undefined`
      entry in either list throws, and there are no figures (`None`). */
  function DashboardMetrics(jobs: seq<Json>, cs: seq<Json>): (r: Option<Metrics>)
    ensures r.None? <==> HasNullish(jobs) || HasNullish(cs)
    ensures r.Some? ==> r.value.totalJobs == |jobs| && r.value.totalCandidates == |cs|
    ensures r.Some? ==> |r.value.candidatesPerJob| == |jobs| && |r.value.topCandidates| == Min(5, |cs|)
    ensures r.Some? && (forall k :: 0 <= k < |cs| ==> 0 <= ScoreOf(cs[k]) <= 100) ==>
      0.0 <= r.value.avgMatchScore <= 100.0
  {
    if HasNullish(jobs) || HasNullish(cs) then None
    else Some(Metrics(|jobs|, |cs|, AverageScore(cs), CandidatesPerJob(jobs, cs), TopCandidates(cs)))
  }
}

=== FILE: experience.dfy ===
/** The experience estimator: the first case-insensitive occurrence of
    `<digits><optional white space>year` or `...yr` in the resume (the
    optional plural `s` of the pattern never changes whether or where it
    matches), mapped to ten points per year, at most 100. */
module Experience {
  import opened Common
  import opened Text

  /** `c` equals the lower-case letter `lower` ignoring case. */
  predicate SameLetter(c: char, lower: char) {
    LowerChar(c) == lower
  }

  /** "yr" or "year", in any case, starts at `k`. */
  predicate UnitAt(s: string, k: int)
    requires 0 <= k <= |s|
  {
    || (k + 2 <= |s| && SameLetter(s[k], 'y') && SameLetter(s[k + 1], 'r'))
    || (k + 4 <= |s| && SameLetter(s[k], 'y') && SameLetter(s[k + 1], 'e')
        && SameLetter(s[k + 2], 'a') && SameLetter(s[k + 3], 'r'))
  }

  /** Reference semantics of the pattern: it matches at `i` with `s[i..j]` as
      the digit group. */
  ghost predicate MatchesAt(s: string, i: int, j: int) {
    && 0 <= i < j <= |s|
    && AllIn(s, i, j, IsDigit)
    && exists k :: j <= k <= |s| && AllIn(s, j, k, IsSpace) && UnitAt(s, k)
  }

  /** The match a backtracking regular-expression engine reports: the
      leftmost start, and at that start the longest (greedy) digit group. */
  ghost predicate FirstMatch(s: string, i: int, j: int) {
    && MatchesAt(s, i, j)
    && (forall i', j' :: 0 <= i' < i ==> !MatchesAt(s, i', j'))
    && (forall j' :: j < j' ==> !MatchesAt(s, i, j'))
  }

  /** The pattern tried at one start: the whole digit run, then all white space,
      then the unit. */
  predicate MatchHere(s: string, i: nat)
    requires i <= |s|
  {
    i < |s| && IsDigit(s[i]) && UnitAt(s, RunEnd(s, RunEnd(s, i, IsDigit), IsSpace))
  }

  /** Trying one start is exact: backtracking to a shorter digit group can
      never succeed, because the unit starts with a letter that is neither a
      digit nor white space. */
  lemma MatchHereExact(s: string, i: nat)
    requires i <= |s|
    ensures MatchHere(s, i) ==> MatchesAt(s, i, RunEnd(s, i, IsDigit))
    ensures forall j :: MatchesAt(s, i, j) ==> MatchHere(s, i) && j == RunEnd(s, i, IsDigit)
  {
    var e := RunEnd(s, i, IsDigit);
    if MatchHere(s, i) {
      var k := RunEnd(s, e, IsSpace);
      assert AllIn(s, e, k, IsSpace) && UnitAt(s, k);
    }
    forall j | MatchesAt(s, i, j)
      ensures MatchHere(s, i) && j == e
    {
      var k :| j <= k <= |s| && AllIn(s, j, k, IsSpace) && UnitAt(s, k);
      assert !IsDigit(s[k]) && !IsSpace(s[k]);
      assert !IsDigit(s[j]) by {
        if j < k { assert IsSpace(s[j]); }
      }
      RunEndAt(s, i, j, IsDigit);
      RunEndAt(s, e, k, IsSpace);
    }
  }

  /** `String.prototype.match` of the pattern, scanning starts from `i` on:
      the start and end of the digit group of the first match, if any. */
  function Scan(s: string, i: nat): (r: Option<(nat, nat)>)
    requires i <= |s|
    ensures r.Some? ==> i <= r.value.0 && MatchesAt(s, r.value.0, r.value.1)
    ensures r.Some? ==> forall i', j' :: i <= i' < r.value.0 ==> !MatchesAt(s, i', j')
    ensures r.Some? ==> forall j' :: r.value.1 < j' ==> !MatchesAt(s, r.value.0, j')
    ensures r.None? ==> forall i', j' :: i <= i' ==> !MatchesAt(s, i', j')
    decreases |s| - i
  {
    MatchHereExact(s, i);
    if i == |s| then None
    else if MatchHere(s, i) then Some((i, RunEnd(s, i, IsDigit)))
    else Scan(s, i + 1)
  }

  /** `calculateExperienceScore`: 0 without a match, else ten points per year
      of the first match, at most 100. */
  function ExperienceScore(resumeText: string): (r: int)
    ensures 0 <= r <= 100
    ensures (forall i, j :: !MatchesAt(resumeText, i, j)) ==> r == 0
    ensures forall i, j :: FirstMatch(resumeText, i, j) ==>
      r == Min(100, 10 * DigitsValue(resumeText[i..j]))
  {
    match Scan(resumeText, 0)
    case None => 0
    case Some((i, j)) =>
      FirstMatchUnique(resumeText, i, j);
      Min(100, 10 * DigitsValue(resumeText[i..j]))
  }

  /** There is only one first match. */
  lemma FirstMatchUnique(s: string, i: int, j: int)
    requires FirstMatch(s, i, j)
    ensures forall i', j' :: FirstMatch(s, i', j') ==> i' == i && j' == j
  {
  }

  /** "5 years of experience" scores 50. */
  lemma FiveYears()
    ensures ExperienceScore("5 years of experience") == 50
  {
    var s := "5 years of experience";
    assert AllIn(s, 1, 2, IsSpace) && UnitAt(s, 2);
    assert !IsDigit(s[1]);
    assert FirstMatch(s, 0, 1);
    assert s[0..1] == "5";
  }

  /** "12 yrs" scores the cap, 100. */
  lemma TwelveYears()
    ensures ExperienceScore("12 yrs") == 100
  {
    var s := "12 yrs";
    assert AllIn(s, 2, 3, IsSpace) && UnitAt(s, 3);
    assert !IsDigit(s[2]);
    assert MatchesAt(s, 0, 2);
    assert FirstMatch(s, 0, 2);
    assert s[0..2] == "12";
    assert DigitsValue("1") == 1;
  }

  /** Only the first mention counts: "3 years ... 10 years" scores 30. */
  lemma FirstMentionOnly()
    ensures ExperienceScore("3 years, then 10 years") == 30
  {
    var s := "3 years, then 10 years";
    assert AllIn(s, 1, 2, IsSpace) && UnitAt(s, 2);
    assert !IsDigit(s[1]);
    assert FirstMatch(s, 0, 1);
    assert s[0..1] == "3";
  }
}

=== FILE: intake.dfy ===
/** The decision logic of the resume upload handler: which checks reject a
    submission, in which order, and what candidate record is stored. The
    database lookup of the job and the text extraction from the uploaded
    file are inputs. */
module Intake {
  import opened Common
  import opened Text
  import opened Nlp
  import Scoring
  import Contact

  /** The uploaded file as the upload middleware hands it over. */
  datatype UploadedFile = UploadedFile(originalName: string, mimeType: string, data: seq<bv8>)

  /** A stored job: its id, owner, description and required skills. */
  datatype Job = Job(id: string, createdBy: string, description: string, skills: seq<string>)

  /** The candidate record that is stored. */
  datatype Candidate = Candidate(
    name: string,
    email: string,
    resumeText: string,
    skills: seq<string>,
    matchScore: int,
    job: string,
    uploadedBy: string,
    resumeFile: UploadedFile)

  /** An error passed on to the error handler, with its HTTP status. */
  datatype HttpError = HttpError(status: int, message: string)

  const NoFile := HttpError(400, "No file uploaded")
  const JobNotFound := HttpError(404, "Job not found or not authorized")
  const TextTooShort := HttpError(400, "Failed to extract text from resume or text too short")
  const NoContact := HttpError(400, "Failed to extract name or email from resume")
  /** Saving a record whose `matchScore` is NaN fails the schema's cast to a
      number; the error reaches the error handler without a status of its own. */
  const ScoreNotANumber := HttpError(500, "Cast to Number failed for value \"NaN\" at path \"matchScore\"")

  /** The job schema's own rule: a job has at least one required skill. */
  predicate ValidJob(job: Job) {
    |job.skills| > 0
  }

  /** `given?.trim() || fallback`: the caller's value, trimmed, unless it is absent or blank. */
  function GivenOr(given: Option<string>, fallback: string): (r: string)
    ensures given.Some? && Trim(given.value) != "" ==> r == Trim(given.value)
    ensures given.None? || Trim(given.value) == "" ==> r == fallback
  {
    if given.Some? && Trim(given.value) != "" then Trim(given.value) else fallback
  }

  /** The record stored for an accepted submission: the job's skills found
      in the text, the composite score against the job, and the caller's name
      and e-mail unless blank, else the ones the text yields. Only a score that
      is a number can be stored. */
  function StoredCandidate(p: Pipeline, file: UploadedFile, job: Job, text: string,
                           givenName: Option<string>, givenEmail: Option<string>,
                           userId: string): (c: Candidate)
    requires Scoring.AdvancedMatch(p, text, job.description, Some(job.skills)).Some?
    ensures c.resumeText == text
    ensures c.job == job.id && c.uploadedBy == userId && c.resumeFile == file
    ensures forall s :: s in c.skills ==> s in job.skills
    ensures forall s :: s in c.skills <==> s in job.skills && FirstTokenMatches(p, Preprocess(p, text), s)
    ensures c.matchScore == Scoring.AdvancedMatch(p, text, job.description, Some(job.skills)).value
    ensures 0 <= c.matchScore <= 100
    ensures c.name == GivenOr(givenName, Contact.ExtractName(text)) && c.name != ""
    ensures c.email == GivenOr(givenEmail, Contact.ExtractEmail(text)) && c.email != ""
    ensures (givenEmail.None? || Trim(givenEmail.value) == "") ==> '@' in c.email
  {
    var skills := ExtractSkills(p, text, job.skills);
    var matchScore := Scoring.AdvancedMatch(p, text, job.description, Some(job.skills)).value;
    var name := GivenOr(givenName, Contact.ExtractName(text));
    var email := GivenOr(givenEmail, Contact.ExtractEmail(text));
    Candidate(name, email, text, skills, matchScore, job.id, userId, file)
  }

  /** The text test `!resumeText || resumeText.trim().length < 10` fails:
      there is text, and trimmed it has at least ten UTF-16 code units. */
  predicate LongEnough(extractedText: Option<string>) {
    extractedText.Some? && Utf16Length(Trim(extractedText.value)) >= 10
  }

  /** `processResume`. `ownedJob` is the caller's job as the ownership lookup
      found it (`None` when it does not exist or belongs to someone else) and
      `extractedText` what text extraction returned (`None` for `null`). The
      checks run in the handler's order, and a submission that passes them is
      stored unless its score is NaN: the name and e-mail check cannot fail. */
  function ProcessResume(p: Pipeline, file: Option<UploadedFile>, ownedJob: Option<Job>,
                         extractedText: Option<string>, givenName: Option<string>,
                         givenEmail: Option<string>, userId: string): (r: Result<Candidate, HttpError>)
    ensures file.None? ==> r == Failure(NoFile)
    ensures file.Some? && ownedJob.None? ==> r == Failure(JobNotFound)
    ensures file.Some? && ownedJob.Some? && !LongEnough(extractedText) ==> r == Failure(TextTooShort)
    ensures file.Some? && ownedJob.Some? && LongEnough(extractedText) ==>
      (r.Success? <==> Scoring.AdvancedMatch(p, extractedText.value, ownedJob.value.description,
                                             Some(ownedJob.value.skills)).Some?)
    ensures file.Some? && ownedJob.Some? && LongEnough(extractedText) && r.Failure? ==> r.error == ScoreNotANumber
    ensures r.Success? ==> file.Some? && ownedJob.Some? && LongEnough(extractedText)
    ensures r.Failure? ==> r.error != NoContact
    ensures r.Failure? ==> r.error in {NoFile, JobNotFound, TextTooShort, ScoreNotANumber}
    ensures r.Success? ==>
      r.value == StoredCandidate(p, file.value, ownedJob.value, extractedText.value, givenName, givenEmail, userId)
  {
    if file.None? then Failure(NoFile)
    else if ownedJob.None? then Failure(JobNotFound)
    else if !LongEnough(extractedText) then Failure(TextTooShort)
    else Store(p, file.value, ownedJob.value, extractedText.value, givenName, givenEmail, userId)
  }

  /** The rest of `processResume` once the file, the job and the text have
      passed: the name and e-mail check, then `Candidate.create`. */
  function Store(p: Pipeline, file: UploadedFile, job: Job, text: string,
                 givenName: Option<string>, givenEmail: Option<string>,
                 userId: string): (r: Result<Candidate, HttpError>)
    ensures r.Success? <==> Scoring.AdvancedMatch(p, text, job.description, Some(job.skills)).Some?
    ensures r.Failure? ==> r.error == ScoreNotANumber
    ensures r.Success? ==> r.value == StoredCandidate(p, file, job, text, givenName, givenEmail, userId)
  {
    var name := GivenOr(givenName, Contact.ExtractName(text));
    var email := GivenOr(givenEmail, Contact.ExtractEmail(text));
    if name == "" || email == "" then Failure(NoContact)
    else if Scoring.AdvancedMatch(p, text, job.description, Some(job.skills)).None? then Failure(ScoreNotANumber)
    else Success(StoredCandidate(p, file, job, text, givenName, givenEmail, userId))
  }

  /** The length test counts UTF-16 code units: five emoji outside the Basic
      Multilingual Plane are ten units, enough to pass it. */
  lemma AstralTextPassesLengthCheck(p: Pipeline, file: UploadedFile, job: Job,
                                    givenName: Option<string>, givenEmail: Option<string>, userId: string)
    ensures ProcessResume(p, Some(file), Some(job), Some("\U{1F600}\U{1F600}\U{1F600}\U{1F600}\U{1F600}"),
                          givenName, givenEmail, userId) != Failure(TextTooShort)
  {
    var text := "\U{1F600}\U{1F600}\U{1F600}\U{1F600}\U{1F600}";
    var face := '\U{1F600}';
    assert !IsSpace(face) && face as int > 0xFFFF;
    assert text == [face, face, face, face, face];
    assert IsTrimmed(text);
    Utf16LengthAstral(text);
  }

  /** For a job the schema admits, the skill-match part of the stored score is
      0 only when none of the job's skills occurs in the resume: the zero
      branch for a missing or empty skill list is never taken here. */
  lemma StoredSkillMatchZeroIff(p: Pipeline, text: string, job: Job)
    requires ValidJob(job)
    ensures Scoring.SkillMatch(p, text, Some(job.skills)) == 0.0
        <==> forall k :: 0 <= k < |job.skills| ==> !Scoring.AnyTokenMatches(p, Preprocess(p, text), job.skills[k])
  {
    Scoring.SkillMatchZero(p, text, job.skills);
  }
}

=== FILE: job_slice.dfy ===
/** The client's jobs slice: the list of jobs, the fetch status, the status
    of the last create/update/delete, and the last error; and the helper that
    turns a jobs response body into a list. */
module JobSlice {
  import opened Common
  import opened Redux

  /** `normalizeResponse`: an array is the list itself; otherwise a truthy
      `data` that is an array is the list, a truthy `data` that is an object
      is a one-element list, and anything else is the empty list. */
  function NormalizeResponse(response: Json): (r: seq<Json>)
    ensures response.JArray? ==> r == response.items
    ensures !response.JArray? && Field(response, "data").JArray? ==> r == Field(response, "data").items
    ensures !response.JArray? && Field(response, "data").JObject? ==> r == [Field(response, "data")]
    ensures !response.JArray? && !Field(response, "data").JArray? && !Field(response, "data").JObject? ==> r == []
  {
    if response.JArray? then response.items
    else
      var data := Field(response, "data");
      if Truthy(data) && data.JArray? then data.items
      else if Truthy(data) && data.JObject? then [data]
      else []
  }

  /** Normalising a list that was already normalised changes nothing, and the
      server's `{ data: [...] }` envelope yields the same list as the bare array. */
  lemma NormalizeResponseIdempotent(response: Json, items: seq<Json>)
    ensures NormalizeResponse(JArray(NormalizeResponse(response))) == NormalizeResponse(response)
    ensures NormalizeResponse(JObject(map["data" := JArray(items)])) == NormalizeResponse(JArray(items))
  {
  }

  /** The jobs slice's state (the fetch timestamp is not modelled). */
  datatype JobState = JobState(jobs: seq<Json>, status: Status, error: Json, operationStatus: Status)

  const InitialJobState := JobState([], Idle, JNull, Idle)

  /** The actions the slice reacts to, with their payloads. */
  datatype JobAction =
    | ClearJobError
    | ResetOperationStatus
    | FetchPending
    | FetchFulfilled(jobs: seq<Json>)
    | FetchRejected(payload: Json)
    | CreatePending
    | CreateFulfilled(job: Json)
    | CreateRejected(payload: Json)
    | UpdatePending
    | UpdateFulfilled(response: Json)
    | UpdateRejected(payload: Json)
    | DeletePending
    | DeleteFulfilled(id: Json)
    | DeleteRejected(payload: Json)
  {
    predicate IsOperationPending() { CreatePending? || UpdatePending? || DeletePending? }
    predicate IsOperationRejected() { CreateRejected? || UpdateRejected? || DeleteRejected? }
  }

  /** `state.jobs.map(job => job._id === updated._id ? updated : job)`. */
  function ReplaceById(jobs: seq<Json>, updated: Json): (r: seq<Json>)
    ensures |r| == |jobs|
    ensures forall k :: 0 <= k < |jobs| && StrictEquals(Field(jobs[k], "_id"), Field(updated, "_id")) ==> r[k] == updated
    ensures forall k :: 0 <= k < |jobs| && !StrictEquals(Field(jobs[k], "_id"), Field(updated, "_id")) ==> r[k] == jobs[k]
  {
    if jobs == [] then []
    else
      var head := if StrictEquals(Field(jobs[0], "_id"), Field(updated, "_id")) then updated else jobs[0];
      [head] + ReplaceById(jobs[1..], updated)
  }

  /** Applying the same update twice is applying it once. */
  lemma ReplaceByIdIdempotent(jobs: seq<Json>, updated: Json)
    ensures ReplaceById(ReplaceById(jobs, updated), updated) == ReplaceById(jobs, updated)
  {
    var once := ReplaceById(jobs, updated);
    var twice := ReplaceById(once, updated);
    forall k | 0 <= k < |jobs|
      ensures twice[k] == once[k]
    {
      if StrictEquals(Field(jobs[k], "_id"), Field(updated, "_id")) {
        assert once[k] == updated;
      }
    }
  }

  /** `clearJobError`: only the error is cleared. */
  function ClearError(s: JobState): (r: JobState)
    ensures r.error == JNull
    ensures r.jobs == s.jobs && r.status == s.status && r.operationStatus == s.operationStatus
  {
    s.(error := JNull)
  }

  /** `resetOperationStatus`: only the operation status returns to idle. */
  function ResetOperation(s: JobState): (r: JobState)
    ensures r.operationStatus == Idle
    ensures r.jobs == s.jobs && r.status == s.status && r.error == s.error
  {
    s.(operationStatus := Idle)
  }

  /** `fetchJobs.pending`: loading, with the previous error cleared. */
  function StartFetch(s: JobState): (r: JobState)
    ensures r.status == Loading && r.error == JNull
    ensures r.jobs == s.jobs && r.operationStatus == s.operationStatus
  {
    s.(status := Loading, error := JNull)
  }

  /** `fetchJobs.fulfilled`: the fetched list replaces the jobs. */
  function FinishFetch(s: JobState, jobs: seq<Json>): (r: JobState)
    ensures r.status == Succeeded && r.jobs == jobs
    ensures r.error == s.error && r.operationStatus == s.operationStatus
  {
    s.(status := Succeeded, jobs := jobs)
  }

  /** `fetchJobs.rejected`: failed, with the server's message or the default. */
  function FailFetch(s: JobState, payload: Json): (r: JobState)
    ensures r.status == Failed && r.error == RejectionError(payload, "Failed to fetch jobs") && Truthy(r.error)
    ensures r.jobs == s.jobs && r.operationStatus == s.operationStatus
  {
    s.(status := Failed, error := RejectionError(payload, "Failed to fetch jobs"))
  }

  /** The pending case of create, update and delete: only the operation status changes
      (the previous error is kept). */
  function StartOperation(s: JobState): (r: JobState)
    ensures r.operationStatus == Loading
    ensures r.jobs == s.jobs && r.status == s.status && r.error == s.error
  {
    s.(operationStatus := Loading)
  }

  /** The rejected case of create, update and delete. */
  function FailOperation(s: JobState, payload: Json, fallback: string): (r: JobState)
    requires fallback != ""
    ensures r.operationStatus == Failed && r.error == RejectionError(payload, fallback) && Truthy(r.error)
    ensures r.jobs == s.jobs && r.status == s.status
  {
    s.(operationStatus := Failed, error := RejectionError(payload, fallback))
  }

  /** `createJob.fulfilled`: the new job is appended after the existing ones. */
  function AddJob(s: JobState, job: Json): (r: JobState)
    ensures r.operationStatus == Succeeded
    ensures |r.jobs| == |s.jobs| + 1 && r.jobs[..|s.jobs|] == s.jobs && r.jobs[|s.jobs|] == job
    ensures r.status == s.status && r.error == s.error
  {
    s.(operationStatus := Succeeded, jobs := s.jobs + [job])
  }

  /** `updateJob.fulfilled`: every job with the updated job's id is replaced,
      the others stay where they are. Reading `data` of a nullish payload
      throws, and once `map` visits a job so does reading `_id` of a nullish
      job or of a nullish `data`; the store then keeps its state. On an empty
      list `map` visits nothing, so only the status changes. */
  function ApplyUpdate(s: JobState, response: Json): (r: JobState)
    ensures IsNullish(response) ==> r == s
    ensures !IsNullish(response) && s.jobs == [] ==> r == s.(operationStatus := Succeeded)
    ensures s.jobs != [] && (IsNullish(Field(response, "data")) || HasNullish(s.jobs)) ==> r == s
    ensures !IsNullish(response) && !IsNullish(Field(response, "data")) && !HasNullish(s.jobs) ==>
      var updated := Field(response, "data");
      && r.operationStatus == Succeeded && |r.jobs| == |s.jobs|
      && (forall k :: 0 <= k < |s.jobs| ==>
            r.jobs[k] == if StrictEquals(Field(s.jobs[k], "_id"), Field(updated, "_id")) then updated else s.jobs[k])
      && !HasNullish(r.jobs)
      && r.status == s.status && r.error == s.error
  {
    if IsNullish(response) then s
    else
      var updated := Field(response, "data");
      if s.jobs != [] && (IsNullish(updated) || HasNullish(s.jobs)) then s
      else s.(operationStatus := Succeeded, jobs := ReplaceById(s.jobs, updated))
  }

  /** `deleteJob.fulfilled`: exactly the jobs with another id remain. A
      nullish job makes the filter throw, and the store keeps its state. */
  function RemoveJob(s: JobState, id: Json): (r: JobState)
    ensures HasNullish(s.jobs) ==> r == s
    ensures !HasNullish(s.jobs) ==>
      && r.operationStatus == Succeeded
      && (forall j :: j in r.jobs <==> j in s.jobs && !StrictEquals(Field(j, "_id"), id))
      && !HasNullish(r.jobs)
    ensures |r.jobs| <= |s.jobs|
    ensures r.status == s.status && r.error == s.error
  {
    if HasNullish(s.jobs) then s
    else s.(operationStatus := Succeeded, jobs := WithoutId(s.jobs, id))
  }

  /** The slice's reducer. Only fulfilled actions change the list, only
      fetch actions change the fetch status, and only create, update and
      delete actions (and the reset) change the operation status. */
  function JobReducer(s: JobState, a: JobAction): (r: JobState)
    ensures r.jobs != s.jobs ==> a.FetchFulfilled? || a.CreateFulfilled? || a.UpdateFulfilled? || a.DeleteFulfilled?
    ensures r.status != s.status ==> a.FetchPending? || a.FetchFulfilled? || a.FetchRejected?
    ensures r.operationStatus != s.operationStatus ==>
      !(a.FetchPending? || a.FetchFulfilled? || a.FetchRejected? || a.ClearJobError?)
    ensures r.error != s.error ==> a.ClearJobError? || a.FetchPending? || a.FetchRejected? || a.IsOperationRejected()
    ensures a.FetchRejected? || a.IsOperationRejected() ==> Truthy(r.error)
  {
    match a
    case ClearJobError => ClearError(s)
    case ResetOperationStatus => ResetOperation(s)
    case FetchPending => StartFetch(s)
    case FetchFulfilled(jobs) => FinishFetch(s, jobs)
    case FetchRejected(payload) => FailFetch(s, payload)
    case CreatePending => StartOperation(s)
    case CreateFulfilled(job) => AddJob(s, job)
    case CreateRejected(payload) => FailOperation(s, payload, "Failed to create job")
    case UpdatePending => StartOperation(s)
    case UpdateFulfilled(response) => ApplyUpdate(s, response)
    case UpdateRejected(payload) => FailOperation(s, payload, "Failed to update job")
    case DeletePending => StartOperation(s)
    case DeleteFulfilled(id) => RemoveJob(s, id)
    case DeleteRejected(payload) => FailOperation(s, payload, "Failed to delete job")
  }

  /** The reducer on the fulfilled actions is the corresponding case function. */
  lemma ReducesToCase(s: JobState, a: JobAction)
    ensures a.CreateFulfilled? ==> JobReducer(s, a) == AddJob(s, a.job)
    ensures a.UpdateFulfilled? ==> JobReducer(s, a) == ApplyUpdate(s, a.response)
    ensures a.DeleteFulfilled? ==> JobReducer(s, a) == RemoveJob(s, a.id)
  {
    match a
    case CreateFulfilled(job) =>
    case UpdateFulfilled(response) =>
    case DeleteFulfilled(id) =>
    case _ =>
  }

  /** An update delivered while the list is empty marks the operation
      succeeded even when the response has no `data`: `map` never reads it. */
  lemma UpdateOnEmptyList(s: JobState, response: Json)
    requires s.jobs == [] && !IsNullish(response)
    ensures JobReducer(s, UpdateFulfilled(response)) == s.(operationStatus := Succeeded)
  {
    ReducesToCase(s, UpdateFulfilled(response));
  }

  /** A nullish entry in the list makes every delete fail: the list and the
      operation status stay as they were. */
  lemma NullishJobBlocksDelete(s: JobState, id: Json)
    requires HasNullish(s.jobs)
    ensures JobReducer(s, DeleteFulfilled(id)) == s
  {
    ReducesToCase(s, DeleteFulfilled(id));
  }

  /** Deleting the same job twice leaves the state of deleting it once. */
  lemma DeleteIdempotent(s: JobState, id: Json)
    ensures JobReducer(JobReducer(s, DeleteFulfilled(id)), DeleteFulfilled(id)) == JobReducer(s, DeleteFulfilled(id))
  {
    var once := RemoveJob(s, id);
    ReducesToCase(s, DeleteFulfilled(id));
    ReducesToCase(once, DeleteFulfilled(id));
    WithoutIdIdempotent(s.jobs, id);
  }

  /** Delivering the same update twice leaves the state of delivering it once. */
  lemma UpdateIdempotent(s: JobState, response: Json)
    ensures JobReducer(JobReducer(s, UpdateFulfilled(response)), UpdateFulfilled(response))
         == JobReducer(s, UpdateFulfilled(response))
  {
    var once := ApplyUpdate(s, response);
    ReducesToCase(s, UpdateFulfilled(response));
    ReducesToCase(once, UpdateFulfilled(response));
    if !IsNullish(response) && s.jobs != [] && !IsNullish(Field(response, "data")) && !HasNullish(s.jobs) {
      ReplaceByIdIdempotent(s.jobs, Field(response, "data"));
    }
  }

  /** Deleting a job that was just created removes it again, provided no
      other job had its id and no entry is nullish, and the earlier jobs are
      back in their order. */
  lemma CreateThenDelete(s: JobState, job: Json, id: Json)
    requires StrictEquals(Field(job, "_id"), id)
    requires forall k :: 0 <= k < |s.jobs| ==> !StrictEquals(Field(s.jobs[k], "_id"), id)
    requires !HasNullish(s.jobs + [job])
    ensures JobReducer(JobReducer(s, CreateFulfilled(job)), DeleteFulfilled(id)).jobs == s.jobs
  {
    var created := AddJob(s, job);
    ReducesToCase(s, CreateFulfilled(job));
    ReducesToCase(created, DeleteFulfilled(id));
    WithoutIdAppend(s.jobs, [job], id);
    assert WithoutId([job], id) == [];
  }
}

=== FILE: nlp.dfy ===
/** The text pipeline shared by the NLP processor and the scoring engine,
    the skill extractor used when a candidate is created, and the legacy
    Jaccard similarity that is kept but not used by the live scoring path.

    The word tokenizer, the stop-word list, the Porter stemmer and the TF-IDF
    term lists come from third-party libraries; they are parameters of the
    model, bundled in a `Pipeline`. */
module Nlp {
  import opened Common
  import opened Text

  /** One `(term, tfidf)` entry of a TF-IDF term list. */
  datatype TermWeight = TermWeight(term: string, weight: real)

  /** A TF-IDF term list. TF-IDF weights are products of a term frequency and
      a positive inverse document frequency, so they are never negative. */
  type Weights = ws: seq<TermWeight> | forall k :: 0 <= k < |ws| ==> ws[k].weight >= 0.0
    witness []

  /** The library primitives the pipeline is built from.
      `listTerms(a, b)` gives the term lists of the two documents of a
      two-document TF-IDF corpus built from `a` then `b`. */
  datatype Pipeline = Pipeline(
    tokenize: string -> seq<string>,
    isStopword: string -> bool,
    stem: string -> string,
    listTerms: (string, string) -> (Weights, Weights))

  /** The one assumption the model makes about the tokenizer: the empty text has no words. */
  predicate EmptyHasNoWords(p: Pipeline) {
    p.tokenize("") == []
  }

  /** `removeStopwords` followed by `map(stem)`, in one pass over the words. */
  function KeepAndStem(p: Pipeline, words: seq<string>): (r: seq<string>)
    ensures |r| <= |words|
  {
    if words == [] then []
    else (if p.isStopword(words[0]) then [] else [p.stem(words[0])]) + KeepAndStem(p, words[1..])
  }

  /** Lower-case, tokenize, drop stop-words, stem (the same in both backend utilities). */
  function Preprocess(p: Pipeline, text: string): (r: seq<string>)
    ensures |r| <= |p.tokenize(ToLower(text))|
    ensures text == "" && EmptyHasNoWords(p) ==> r == []
  {
    KeepAndStem(p, p.tokenize(ToLower(text)))
  }

  /** The kept-and-stemmed words are exactly the stems of the words that are not stop-words. */
  lemma {:induction false} KeepAndStemMembers(p: Pipeline, words: seq<string>, t: string)
    ensures t in KeepAndStem(p, words) <==> exists w :: w in words && !p.isStopword(w) && p.stem(w) == t
  {
    if words != [] {
      KeepAndStemMembers(p, words[1..], t);
      var head := if p.isStopword(words[0]) then [] else [p.stem(words[0])];
      assert KeepAndStem(p, words) == head + KeepAndStem(p, words[1..]);
      if exists w :: w in words && !p.isStopword(w) && p.stem(w) == t {
        var w :| w in words && !p.isStopword(w) && p.stem(w) == t;
        if w != words[0] {
          assert w in words[1..];
        }
      }
      if exists w :: w in words[1..] && !p.isStopword(w) && p.stem(w) == t {
        var w :| w in words[1..] && !p.isStopword(w) && p.stem(w) == t;
        assert w in words;
      }
    }
  }

  /** The tokens of a text are exactly the stems of its words that are not stop-words. */
  lemma PreprocessMembers(p: Pipeline, text: string, t: string)
    ensures t in Preprocess(p, text) <==>
      exists w :: w in p.tokenize(ToLower(text)) && !p.isStopword(w) && p.stem(w) == t
  {
    KeepAndStemMembers(p, p.tokenize(ToLower(text)), t);
  }

  /** The first token of a skill name's preprocessing, if there is one
      (`preprocessText(skill)[0]`, which is `undefined` for no tokens). */
  function FirstToken(p: Pipeline, skill: string): Option<string> {
    var ts := Preprocess(p, skill);
    if ts == [] then None else Some(ts[0])
  }

  /** The skill extractor's test: the first token of the skill is a resume token. */
  predicate FirstTokenMatches(p: Pipeline, tokens: seq<string>, skill: string) {
    FirstToken(p, skill).Some? && FirstToken(p, skill).value in tokens
  }

  predicate NoDuplicates<T(==)>(xs: seq<T>) {
    forall i, j :: 0 <= i < j < |xs| ==> xs[i] != xs[j]
  }

  /** The position of the first occurrence of `x` in `xs`. */
  function FirstIndex<T(==)>(xs: seq<T>, x: T): (r: nat)
    requires x in xs
    ensures r < |xs| && xs[r] == x && x !in xs[..r]
  {
    if xs[0] == x then 0
    else
      var r := 1 + FirstIndex(xs[1..], x);
      assert xs[..r] == [xs[0]] + xs[1..][..r - 1];
      r
  }

  /** An element found before position `i` first occurs before `i`. */
  lemma FirstIndexInPrefix<T>(xs: seq<T>, x: T, i: nat)
    requires i <= |xs| && x in xs[..i]
    ensures FirstIndex(xs, x) < i
  {
    var m :| 0 <= m < i && xs[..i][m] == x;
    assert xs[m] == x;
  }

  /** An element absent from the first `i` positions first occurs at or after `i`. */
  lemma FirstIndexAtLeast<T>(xs: seq<T>, x: T, i: nat)
    requires i <= |xs| && x in xs && x !in xs[..i]
    ensures FirstIndex(xs, x) >= i
  {
  }

  /** True when the elements of `r` appear in the order of their first occurrence in `all`. */
  predicate InFirstOccurrenceOrder<T(==)>(r: seq<T>, all: seq<T>)
    requires forall k :: 0 <= k < |r| ==> r[k] in all
  {
    forall i, j :: 0 <= i < j < |r| ==> FirstIndex(all, r[i]) < FirstIndex(all, r[j])
  }

  /** What the `Set` holds after the first `i` skills of `all` were visited:
      each matching skill once, in first-occurrence order. */
  predicate Collected(p: Pipeline, tokens: seq<string>, all: seq<string>, i: nat, acc: seq<string>)
    requires i <= |all|
  {
    && NoDuplicates(acc)
    && (forall k :: 0 <= k < |acc| ==> acc[k] in all[..i] && FirstTokenMatches(p, tokens, acc[k]))
    && (forall s :: s in all[..i] && FirstTokenMatches(p, tokens, s) ==> s in acc)
    && InFirstOccurrenceOrder(acc, all)
  }

  /** Visiting a skill that is not added keeps `Collected`. */
  lemma CollectSkip(p: Pipeline, tokens: seq<string>, all: seq<string>, i: nat, acc: seq<string>)
    requires i < |all| && Collected(p, tokens, all, i, acc)
    requires !FirstTokenMatches(p, tokens, all[i]) || all[i] in acc
    ensures Collected(p, tokens, all, i + 1, acc)
  {
    assert all[..i + 1] == all[..i] + [all[i]];
  }

  /** Adding a matching skill seen for the first time keeps `Collected`. */
  lemma CollectAdd(p: Pipeline, tokens: seq<string>, all: seq<string>, i: nat, acc: seq<string>)
    requires i < |all| && Collected(p, tokens, all, i, acc)
    requires FirstTokenMatches(p, tokens, all[i]) && all[i] !in acc
    ensures Collected(p, tokens, all, i + 1, acc + [all[i]])
  {
    var s := all[i];
    var acc' := acc + [s];
    assert all[..i + 1] == all[..i] + [s];
    assert NoDuplicates(acc');
    FirstIndexAtLeast(all, s, i);
    forall k | 0 <= k < |acc|
      ensures FirstIndex(all, acc[k]) < i
    {
      FirstIndexInPrefix(all, acc[k], i);
    }
    assert InFirstOccurrenceOrder(acc', all);
  }

  /** The `forEach` over the job's skills that fills a `Set`, from position `i` on,
      with `acc` the insertion-ordered contents of the set so far. */
  function CollectSkills(p: Pipeline, tokens: seq<string>, all: seq<string>, i: nat, acc: seq<string>)
    : (r: seq<string>)
    requires i <= |all| && Collected(p, tokens, all, i, acc)
    ensures Collected(p, tokens, all, |all|, r)
    ensures |r| <= |acc| + |all| - i
    ensures tokens == [] ==> r == acc
    decreases |all| - i
  {
    if i == |all| then
      acc
    else
      var s := all[i];
      if FirstTokenMatches(p, tokens, s) && s !in acc then
        CollectAdd(p, tokens, all, i, acc);
        CollectSkills(p, tokens, all, i + 1, acc + [s])
      else
        CollectSkip(p, tokens, all, i, acc);
        CollectSkills(p, tokens, all, i + 1, acc)
  }

  /** `extractSkills`: the job's skills whose first preprocessed token occurs
      among the resume's tokens, each once, in the job's order and casing. */
  function ExtractSkills(p: Pipeline, text: string, jobSkills: seq<string>): (r: seq<string>)
    ensures NoDuplicates(r)
    ensures forall k :: 0 <= k < |r| ==> r[k] in jobSkills
    ensures forall s :: s in r <==> s in jobSkills && FirstTokenMatches(p, Preprocess(p, text), s)
    ensures InFirstOccurrenceOrder(r, jobSkills)
    ensures |r| <= |jobSkills|
    ensures text == "" && EmptyHasNoWords(p) ==> r == []
  {
    var r := CollectSkills(p, Preprocess(p, text), jobSkills, 0, []);
    assert jobSkills[..|jobSkills|] == jobSkills;
    r
  }

  /** A skill whose preprocessing has no tokens (only stop-words, say) is never extracted. */
  lemma NoTokensNeverExtracted(p: Pipeline, text: string, jobSkills: seq<string>, skill: string)
    requires Preprocess(p, skill) == []
    ensures skill !in ExtractSkills(p, text, jobSkills)
  {
  }

  /** The set of tokens of a text (`new Set(tokens)`). */
  function TokenSet(p: Pipeline, text: string): (r: set<string>)
    ensures forall t :: t in r <==> t in Preprocess(p, text)
    ensures r == {} <==> Preprocess(p, text) == []
  {
    var ts := Preprocess(p, text);
    assert ts != [] ==> ts[0] in (set t | t in ts);
    set t | t in ts
  }

  /** The legacy `calculateMatchScore`: the Jaccard index of the two token sets
      as a rounded percentage; `None` stands for the `NaN` of `0 / 0` when
      both texts have no tokens. */
  function JaccardScore(p: Pipeline, resumeText: string, jobDescription: string): (r: Option<int>)
    ensures r.None? <==> Preprocess(p, resumeText) == [] && Preprocess(p, jobDescription) == []
    ensures r.Some? ==> 0 <= r.value <= 100
  {
    var a := TokenSet(p, resumeText);
    var b := TokenSet(p, jobDescription);
    if |a + b| == 0 then
      None
    else
      SubsetCardinality(a * b, a + b);
      var x := Percent(|a * b|, |a + b|);
      RoundBetween(x, 0, 100);
      Some(Round(x))
  }

  lemma SubsetCardinality<T>(a: set<T>, b: set<T>)
    requires a <= b
    ensures |a| <= |b|
  {
    assert b == a + (b - a);
  }

  /** The legacy score does not depend on which text is the resume. */
  lemma JaccardSymmetric(p: Pipeline, x: string, y: string)
    ensures JaccardScore(p, x, y) == JaccardScore(p, y, x)
  {
    var a := TokenSet(p, x);
    var b := TokenSet(p, y);
    assert a * b == b * a;
    assert a + b == b + a;
  }

  /** Identical texts with at least one token score 100. */
  lemma JaccardIdentical(p: Pipeline, x: string)
    requires Preprocess(p, x) != []
    ensures JaccardScore(p, x, x) == Some(100)
  {
    var a := TokenSet(p, x);
    assert a * a == a + a;
  }
}

=== FILE: redux.dfy ===
/** What the client's state slices share: JSON values as the server sends
    them, JavaScript truthiness and strict equality on them, the status
    labels, the `payload?.message || fallback` rule for errors, and the
    "remove every record with this `_id`" list operation. */
module Redux {
  import opened Common

  /** A JSON value, plus `undefined` for a missing property. Numbers are
      integers in this model. */
  datatype Json =
    | JUndefined
    | JNull
    | JBool(b: bool)
    | JNumber(n: int)
    | JString(s: string)
    | JArray(items: seq<Json>)
    | JObject(fields: map<string, Json>)

  /** JavaScript truthiness: `undefined`, `null`, `false`, `0` and `""` are falsy. */
  predicate Truthy(j: Json) {
    match j
    case JUndefined => false
    case JNull => false
    case JBool(b) => b
    case JNumber(n) => n != 0
    case JString(s) => s != ""
    case JArray(_) => true
    case JObject(_) => true
  }

  /** `null` or `undefined`: reading a property of it throws. */
  predicate IsNullish(j: Json) {
    j.JNull? || j.JUndefined?
  }

  /** Some entry is `null` or `undefined`: a callback that reads its `_id` throws. */
  predicate HasNullish(items: seq<Json>) {
    exists k :: 0 <= k < |items| && IsNullish(items[k])
  }

  /** `j?.key`: the property of an object, `undefined` otherwise. */
  function Field(j: Json, key: string): (r: Json)
    ensures r != JUndefined ==> j.JObject? && key in j.fields
  {
    if j.JObject? && key in j.fields then j.fields[key] else JUndefined
  }

  /** `a === b` for values decoded from separate responses: primitives compare
      by value, while two distinct objects or arrays are never identical. */
  predicate StrictEquals(a: Json, b: Json) {
    !a.JArray? && !a.JObject? && a == b
  }

  /** The status labels the slices use. */
  datatype Status = Idle | Loading | Succeeded | Failed | Uploading

  /** The error a rejected case stores: `action.payload?.message || fallback`. */
  function RejectionError(payload: Json, fallback: string): (r: Json)
    ensures fallback != "" ==> Truthy(r)
    ensures r == JString(fallback) || r == Field(payload, "message")
    ensures Truthy(Field(payload, "message")) ==> r == Field(payload, "message")
  {
    var message := Field(payload, "message");
    if Truthy(message) then message else JString(fallback)
  }

  /** The server's own message wins over the case's default; without one the
      default is shown. */
  lemma RejectionErrorCases(message: string, fallback: string)
    requires fallback != ""
    ensures message != "" ==>
      RejectionError(JObject(map["message" := JString(message)]), fallback) == JString(message)
    ensures RejectionError(JObject(map["message" := JString("")]), fallback) == JString(fallback)
    ensures RejectionError(JUndefined, fallback) == JString(fallback)
  {
  }

  /** The records whose `_id` is not `id`, in order
      (`items.filter(x => x._id !== id)`). */
  function WithoutId(items: seq<Json>, id: Json): (r: seq<Json>)
    ensures |r| <= |items|
    ensures forall x :: x in r <==> x in items && !StrictEquals(Field(x, "_id"), id)
    ensures (forall k :: 0 <= k < |items| ==> !StrictEquals(Field(items[k], "_id"), id)) ==> r == items
    ensures !HasNullish(items) ==> !HasNullish(r)
  {
    FilterMembers(items, x => !StrictEquals(Field(x, "_id"), id));
    Filter(items, x => !StrictEquals(Field(x, "_id"), id))
  }

  /** Removing an id twice is removing it once. */
  lemma WithoutIdIdempotent(items: seq<Json>, id: Json)
    ensures WithoutId(WithoutId(items, id), id) == WithoutId(items, id)
  {
    FilterIdempotent(items, x => !StrictEquals(Field(x, "_id"), id));
  }

  /** Removal keeps the relative order of the records that stay. */
  lemma WithoutIdAppend(a: seq<Json>, b: seq<Json>, id: Json)
    ensures WithoutId(a + b, id) == WithoutId(a, id) + WithoutId(b, id)
  {
    FilterAppend(a, b, x => !StrictEquals(Field(x, "_id"), id));
  }

  /** Removals of two ids commute. */
  lemma WithoutIdCommutes(items: seq<Json>, id1: Json, id2: Json)
    ensures WithoutId(WithoutId(items, id1), id2) == WithoutId(WithoutId(items, id2), id1)
  {
    FilterCommutes(items, x => !StrictEquals(Field(x, "_id"), id1), x => !StrictEquals(Field(x, "_id"), id2));
  }
}

=== FILE: scoring.dfy ===
/** The scoring engine: TF-IDF text similarity, skill match, experience and
    their fixed-weight composite. Every score that is a number lies between
    0 and 100; the text similarity, and with it the composite, can be NaN. */
module Scoring {
  import opened Common
  import opened Nlp
  import Experience

  /** The properties every plain object inherits from `Object.prototype`. A
      lookup of one of them on `{}` yields a function, or for `__proto__` the
      prototype object itself: a truthy value that is not a number, so that
      multiplying it by a weight gives NaN. */
  const InheritedNames: set<string> := {
    "constructor", "hasOwnProperty", "isPrototypeOf", "propertyIsEnumerable",
    "toLocaleString", "toString", "valueOf", "__proto__",
    "__defineGetter__", "__defineSetter__", "__lookupGetter__", "__lookupSetter__"}

  /** Assigning a number to this property of a plain object is ignored, so it
      never becomes an own property. */
  const ProtoName := "__proto__"

  /** The resume's term list as the own properties of the `terms` object built
      by `forEach`: a later entry for a term overwrites an earlier one, and an
      entry for `__proto__` is dropped. */
  function WeightMap(ws: Weights): (m: map<string, real>)
    ensures forall t :: t in m ==> m[t] >= 0.0
    ensures forall t :: t in m ==> t != ProtoName && exists k :: 0 <= k < |ws| && ws[k].term == t && ws[k].weight == m[t]
    ensures forall k :: 0 <= k < |ws| && ws[k].term != ProtoName ==> ws[k].term in m
  {
    if ws == [] then map[]
    else
      var last := ws[|ws| - 1];
      var front: Weights := ws[..|ws| - 1];
      var m := WeightMap(front);
      assert forall k :: 0 <= k < |front| ==> front[k] == ws[k];
      if last.term == ProtoName then m else m[last.term := last.weight]
  }

  /** No later entry of `ws` has the term of entry `k`. */
  predicate IsLastEntry(ws: Weights, k: int)
    requires 0 <= k < |ws|
  {
    forall j :: k < j < |ws| ==> ws[j].term != ws[k].term
  }

  /** The last entry for a term is the one whose weight `terms` keeps. */
  lemma {:induction false} LastEntryWins(ws: Weights, k: int)
    requires 0 <= k < |ws| && ws[k].term != ProtoName && IsLastEntry(ws, k)
    ensures ws[k].term in WeightMap(ws) && WeightMap(ws)[ws[k].term] == ws[k].weight
  {
    var n := |ws| - 1;
    var front: Weights := ws[..n];
    if k < n {
      assert front[k] == ws[k];
      assert IsLastEntry(front, k);
      LastEntryWins(front, k);
      WeightMapKeeps(ws, front, ws[k].term);
    } else {
      WeightMapWrites(ws, front);
    }
  }

  /** The last entry of the list is written over the map of the others,
      unless it is `__proto__`. */
  lemma WeightMapWrites(ws: Weights, front: Weights)
    requires ws != [] && front == ws[..|ws| - 1] && ws[|ws| - 1].term != ProtoName
    ensures WeightMap(ws) == WeightMap(front)[ws[|ws| - 1].term := ws[|ws| - 1].weight]
  {
  }

  /** The last entry of the list leaves every other term's weight alone. */
  lemma WeightMapKeeps(ws: Weights, front: Weights, t: string)
    requires ws != [] && front == ws[..|ws| - 1] && ws[|ws| - 1].term != t && t in WeightMap(front)
    ensures t in WeightMap(ws) && WeightMap(ws)[t] == WeightMap(front)[t]
  {
    var last := ws[|ws| - 1];
    var m := WeightMap(front);
    assert WeightMap(ws) == if last.term == ProtoName then m else m[last.term := last.weight];
  }

  /** `terms[t]` reads an inherited property: `t` is not an own property of
      `terms` but one of the inherited names. */
  predicate ReadsInherited(m: map<string, real>, t: string) {
    t !in m && t in InheritedNames
  }

  /** In terms of the resume's list: a lookup reads an inherited property
      exactly when the name is inherited and either is `__proto__` or has no
      entry in the list. */
  lemma ReadsInheritedIff(resumeTerms: Weights, t: string)
    ensures ReadsInherited(WeightMap(resumeTerms), t) <==>
      t in InheritedNames && (t == ProtoName || forall j :: 0 <= j < |resumeTerms| ==> resumeTerms[j].term != t)
  {
  }

  /** The accumulation over the job's term list: each term whose resume weight
      is truthy (present and non-zero) adds the product of its two weights,
      and a term that reads an inherited property makes the sum NaN (`None`). */
  function Overlap(m: map<string, real>, jobTerms: Weights): (r: Option<real>)
    requires forall t :: t in m ==> m[t] >= 0.0
    ensures r.None? <==> exists k :: 0 <= k < |jobTerms| && ReadsInherited(m, jobTerms[k].term)
    ensures r.Some? ==> r.value >= 0.0
    ensures r.Some? && (forall k :: 0 <= k < |jobTerms| ==> jobTerms[k].term !in m || m[jobTerms[k].term] == 0.0)
      ==> r.value == 0.0
  {
    if jobTerms == [] then Some(0.0)
    else
      var item := jobTerms[0];
      var rest: Weights := jobTerms[1..];
      assert forall k :: 0 <= k < |rest| ==> rest[k] == jobTerms[k + 1];
      var tail := Overlap(m, rest);
      if ReadsInherited(m, item.term) then None
      else if tail.None? then None
      else Some(Contribution(m, item) + tail.value)
  }

  /** What one job term adds when its resume weight is truthy: the product of the two weights. */
  function Contribution(m: map<string, real>, item: TermWeight): (r: real)
    requires forall t :: t in m ==> m[t] >= 0.0
    requires item.weight >= 0.0
    ensures r >= 0.0
    ensures item.term !in m || m[item.term] == 0.0 ==> r == 0.0
  {
    if item.term in m && m[item.term] != 0.0 then m[item.term] * item.weight else 0.0
  }

  /** `calculateTextSimilarity` on the two TF-IDF term lists: the rounded
      percentage of the weight overlap, capped at 100; NaN (`None`) when a job
      term reads an inherited property of `terms`. */
  function SimilarityFromTerms(resumeTerms: Weights, jobTerms: Weights): (r: Option<int>)
    ensures r.None? <==> exists k :: 0 <= k < |jobTerms| && ReadsInherited(WeightMap(resumeTerms), jobTerms[k].term)
    ensures r.Some? ==> 0 <= r.value <= 100
    ensures r.Some? && (forall j, k ::
               (0 <= j < |resumeTerms| && 0 <= k < |jobTerms| && resumeTerms[j].term == jobTerms[k].term)
               ==> resumeTerms[j].weight == 0.0)
      ==> r.value == 0
  {
    var sum := Overlap(WeightMap(resumeTerms), jobTerms);
    if sum.None? then None
    else
      RoundBetween(0.0, 0, 0);
      RoundMonotone(0.0, sum.value * 100.0);
      Some(Min(100, Round(sum.value * 100.0)))
  }

  /** `calculateTextSimilarity(text1, text2)` over the two-document TF-IDF
      corpus; `None` stands for NaN. */
  function TextSimilarity(p: Pipeline, text1: string, text2: string): (r: Option<int>)
    ensures r.None? <==>
      exists k :: 0 <= k < |p.listTerms(text1, text2).1| &&
        ReadsInherited(WeightMap(p.listTerms(text1, text2).0), p.listTerms(text1, text2).1[k].term)
    ensures r.Some? ==> 0 <= r.value <= 100
  {
    var (resumeTerms, jobTerms) := p.listTerms(text1, text2);
    SimilarityFromTerms(resumeTerms, jobTerms)
  }

  /** The skill-match test: some token of the whole skill phrase is a resume token. */
  predicate AnyTokenMatches(p: Pipeline, tokens: seq<string>, skill: string) {
    exists t :: t in Preprocess(p, skill) && t in tokens
  }

  /** The skill-match test as the callback of `forEach`. */
  function MatchesSkill(p: Pipeline, tokens: seq<string>): string -> bool {
    s => AnyTokenMatches(p, tokens, s)
  }

  /** How many of the skills pass the skill-match test. */
  function MatchedCount(p: Pipeline, tokens: seq<string>, skills: seq<string>): nat {
    CountWhere(skills, MatchesSkill(p, tokens))
  }

  /** `calculateSkillMatch`: 0 when the skill list is absent or empty, else the
      percentage of skills that pass the skill-match test. */
  function SkillMatch(p: Pipeline, resumeText: string, requiredSkills: Option<seq<string>>): (r: real)
    ensures 0.0 <= r <= 100.0
    ensures requiredSkills.None? || requiredSkills.value == [] ==> r == 0.0
  {
    match requiredSkills
    case None => 0.0
    case Some(skills) =>
      if |skills| == 0 then 0.0
      else Percent(MatchedCount(p, Preprocess(p, resumeText), skills), |skills|)
  }

  /** Appending one skill adds one to the count exactly when it matches. */
  lemma {:induction false} CountAppend(p: Pipeline, tokens: seq<string>, skills: seq<string>, s: string)
    ensures MatchedCount(p, tokens, skills + [s])
         == MatchedCount(p, tokens, skills) + (if AnyTokenMatches(p, tokens, s) then 1 else 0)
  {
    if skills == [] {
      assert skills + [s] == [s];
    } else {
      assert (skills + [s])[1..] == skills[1..] + [s];
      CountAppend(p, tokens, skills[1..], s);
    }
  }

  /** Skill match is 100 exactly when every skill matches. */
  lemma {:induction false} CountAll(p: Pipeline, tokens: seq<string>, skills: seq<string>)
    ensures MatchedCount(p, tokens, skills) == |skills|
        <==> forall k :: 0 <= k < |skills| ==> AnyTokenMatches(p, tokens, skills[k])
  {
    if skills != [] {
      CountAll(p, tokens, skills[1..]);
      assert forall k :: 1 <= k < |skills| ==> skills[k] == skills[1..][k - 1];
    }
  }

  /** With skills, the score is 100 exactly when every skill matches. */
  lemma SkillMatchFull(p: Pipeline, resumeText: string, skills: seq<string>)
    requires skills != []
    ensures SkillMatch(p, resumeText, Some(skills)) == 100.0
        <==> forall k :: 0 <= k < |skills| ==> AnyTokenMatches(p, Preprocess(p, resumeText), skills[k])
  {
    var tokens := Preprocess(p, resumeText);
    CountAll(p, tokens, skills);
    PercentFull(MatchedCount(p, tokens, skills), |skills|);
  }

  lemma PercentFull(n: nat, d: nat)
    requires 0 < d && n <= d
    ensures Percent(n, d) == 100.0 <==> n == d
  {
    if n < d {
      assert n as real / d as real < 1.0;
    }
  }

  /** A skill whose phrase has no tokens (only stop-words, say) never matches,
      yet still counts in the denominator. */
  lemma EmptySkillCountsAgainst(p: Pipeline, resumeText: string, skills: seq<string>, s: string)
    requires Preprocess(p, s) == []
    ensures !AnyTokenMatches(p, Preprocess(p, resumeText), s)
    ensures SkillMatch(p, resumeText, Some(skills + [s]))
         == Percent(MatchedCount(p, Preprocess(p, resumeText), skills), |skills| + 1)
  {
    CountAppend(p, Preprocess(p, resumeText), skills, s);
  }

  /** Appending a matching skill never lowers the skill match. */
  lemma AppendMatchingSkill(p: Pipeline, resumeText: string, skills: seq<string>, s: string)
    requires AnyTokenMatches(p, Preprocess(p, resumeText), s)
    ensures SkillMatch(p, resumeText, Some(skills + [s])) >= SkillMatch(p, resumeText, Some(skills))
  {
    var tokens := Preprocess(p, resumeText);
    CountAppend(p, tokens, skills, s);
    if skills != [] {
      RatioUp(MatchedCount(p, tokens, skills), |skills|);
    }
  }

  /** Appending a non-matching skill never raises the skill match. */
  lemma AppendNonMatchingSkill(p: Pipeline, resumeText: string, skills: seq<string>, s: string)
    requires !AnyTokenMatches(p, Preprocess(p, resumeText), s)
    ensures SkillMatch(p, resumeText, Some(skills + [s])) <= SkillMatch(p, resumeText, Some(skills))
  {
    var tokens := Preprocess(p, resumeText);
    var m := MatchedCount(p, tokens, skills);
    assert MatchedCount(p, tokens, skills + [s]) == m by {
      CountAppend(p, tokens, skills, s);
    }
    var after := SkillMatch(p, resumeText, Some(skills + [s]));
    assert after == Percent(m, |skills| + 1) by {
      SkillMatchUnfold(p, resumeText, skills + [s]);
    }
    if skills != [] {
      var before := SkillMatch(p, resumeText, Some(skills));
      assert before == Percent(m, |skills|) by {
        SkillMatchUnfold(p, resumeText, skills);
      }
      assert Percent(m, |skills| + 1) <= Percent(m, |skills|) by {
        RatioDown(m, |skills|);
      }
    } else {
      assert m == 0;
    }
  }

  /** Proof step: one unfolding of `SkillMatch` for a non-empty list. */
  lemma SkillMatchUnfold(p: Pipeline, resumeText: string, skills: seq<string>)
    requires skills != []
    ensures SkillMatch(p, resumeText, Some(skills))
         == Percent(MatchedCount(p, Preprocess(p, resumeText), skills), |skills|)
  {
  }

  /** With skills, the score is the percentage of the skills that pass the
      test, counted as the length of the filtered list. */
  lemma SkillMatchIsMatchedShare(p: Pipeline, resumeText: string, skills: seq<string>)
    requires skills != []
    ensures SkillMatch(p, resumeText, Some(skills))
         == Percent(|Filter(skills, MatchesSkill(p, Preprocess(p, resumeText)))|, |skills|)
  {
    var tokens := Preprocess(p, resumeText);
    SkillMatchUnfold(p, resumeText, skills);
    CountWhereIsFilterLength(skills, MatchesSkill(p, tokens));
  }

  /** With skills, the score is 0 exactly when no skill passes the test. */
  lemma SkillMatchZero(p: Pipeline, resumeText: string, skills: seq<string>)
    requires skills != []
    ensures SkillMatch(p, resumeText, Some(skills)) == 0.0
        <==> forall k :: 0 <= k < |skills| ==> !AnyTokenMatches(p, Preprocess(p, resumeText), skills[k])
  {
    var tokens := Preprocess(p, resumeText);
    var keep := MatchesSkill(p, tokens);
    var c := MatchedCount(p, tokens, skills);
    SkillMatchUnfold(p, resumeText, skills);
    PercentTimes(c, |skills|);
    var score := SkillMatch(p, resumeText, Some(skills));
    assert score == 0.0 <==> c == 0;
    assert (forall k :: 0 <= k < |skills| ==> !keep(skills[k]))
       <==> (forall k :: 0 <= k < |skills| ==> !AnyTokenMatches(p, tokens, skills[k]));
    CountWhereExtremes(skills, keep);
    if c == 0 {
      CountWhereIsFilterLength(skills, keep);
      FilterMembers(skills, keep);
      forall k | 0 <= k < |skills|
        ensures !keep(skills[k])
      {
        assert skills[k] !in Filter(skills, keep);
      }
    }
  }

  /** `(m + 1) / (n + 1) >= m / n` when `m <= n`. */
  lemma RatioUp(m: nat, n: nat)
    requires 0 < n && m <= n
    ensures Percent(m + 1, n + 1) >= Percent(m, n)
  {
    QuotientLe(m as real, n as real, (m + 1) as real, (n + 1) as real);
  }

  /** `m / (n + 1) <= m / n`. */
  lemma RatioDown(m: nat, n: nat)
    requires 0 < n
    ensures Percent(m, n + 1) <= Percent(m, n)
  {
    QuotientLe(m as real, (n + 1) as real, m as real, n as real);
  }

  /** `p / x <= q / y` when `p * y <= q * x`, for positive `x` and `y`. */
  lemma QuotientLe(p: real, x: real, q: real, y: real)
    requires x > 0.0 && y > 0.0 && p * y <= q * x
    ensures p / x <= q / y
  {
    var a := p / x;
    var b := q / y;
    assert a * x == p;
    assert b * y == q;
    assert (b - a) * (x * y) == q * x - p * y;
    assert (b - a) * (x * y) >= 0.0;
    assert x * y > 0.0;
  }

  /** Every skill the extractor reports also counts for the skill match: its
      first token is one of its tokens. */
  lemma ExtractedSkillsMatch(p: Pipeline, resumeText: string, jobSkills: seq<string>)
    ensures forall s :: s in ExtractSkills(p, resumeText, jobSkills) ==>
      AnyTokenMatches(p, Preprocess(p, resumeText), s)
  {
    forall s | s in ExtractSkills(p, resumeText, jobSkills)
      ensures AnyTokenMatches(p, Preprocess(p, resumeText), s)
    {
      assert FirstTokenMatches(p, Preprocess(p, resumeText), s);
      assert Preprocess(p, s)[0] in Preprocess(p, s);
    }
  }

  /** The weighted blend of the three sub-scores, rounded. */
  function Composite(textSimilarity: real, skillMatch: real, experience: real): (r: int)
    ensures 0.0 <= textSimilarity <= 100.0 && 0.0 <= skillMatch <= 100.0 && 0.0 <= experience <= 100.0
      ==> 0 <= r <= 100
  {
    var total := textSimilarity * 0.5 + skillMatch * 0.3 + experience * 0.2;
    assert 0.0 <= total <= 100.0 ==> 0 <= Round(total) <= 100 by {
      if 0.0 <= total <= 100.0 { RoundBetween(total, 0, 100); }
    }
    Round(total)
  }

  /** A higher sub-score never lowers the composite. */
  lemma CompositeMonotone(t: real, s: real, e: real, t': real, s': real, e': real)
    requires t <= t' && s <= s' && e <= e'
    ensures Composite(t, s, e) <= Composite(t', s', e')
  {
    RoundMonotone(t * 0.5 + s * 0.3 + e * 0.2, t' * 0.5 + s' * 0.3 + e' * 0.2);
  }

  /** 80, 60 and 50 blend to round(40 + 18 + 10) = 68. */
  lemma CompositeExample()
    ensures Composite(80.0, 60.0, 50.0) == 68
  {
  }

  /** `calculateAdvancedMatch`: the composite of the three sub-scores of a
      resume against a job's description and skills. A NaN text similarity
      makes the whole score NaN (`None`); the other two parts are always numbers. */
  function AdvancedMatch(p: Pipeline, resumeText: string, jobDescription: string,
                         requiredSkills: Option<seq<string>>): (r: Option<int>)
    ensures r.None? <==> TextSimilarity(p, resumeText, jobDescription).None?
    ensures r.Some? ==> 0 <= r.value <= 100
  {
    var textSimilarity := TextSimilarity(p, resumeText, jobDescription);
    if textSimilarity.None? then None
    else
      Some(Composite(textSimilarity.value as real,
                     SkillMatch(p, resumeText, requiredSkills),
                     Experience.ExperienceScore(resumeText) as real))
  }

  /** An empty resume scores 0 on every part, given that the tokenizer finds
      no words in it, TF-IDF lists no terms for it, and no term of the job
      description is an inherited property name. */
  lemma EmptyResumeScoresZero(p: Pipeline, jobDescription: string, requiredSkills: Option<seq<string>>)
    requires EmptyHasNoWords(p)
    requires p.listTerms("", jobDescription).0 == []
    requires forall k :: 0 <= k < |p.listTerms("", jobDescription).1| ==>
      p.listTerms("", jobDescription).1[k].term !in InheritedNames
    ensures TextSimilarity(p, "", jobDescription) == Some(0)
    ensures SkillMatch(p, "", requiredSkills) == 0.0
    ensures Experience.ExperienceScore("") == 0
    ensures AdvancedMatch(p, "", jobDescription, requiredSkills) == Some(0)
  {
    if requiredSkills.Some? && requiredSkills.value != [] {
      var skills := requiredSkills.value;
      assert Preprocess(p, "") == [];
      assert MatchedCount(p, [], skills) == 0 by {
        CountNone(p, skills);
      }
    }
  }

  /** A job description with the word "constructor" scored against a resume
      without it makes the text similarity, and so the match score, NaN. */
  lemma ConstructorTermIsNaN(p: Pipeline, resumeText: string, jobDescription: string,
                             requiredSkills: Option<seq<string>>, k: int)
    requires 0 <= k < |p.listTerms(resumeText, jobDescription).1|
    requires p.listTerms(resumeText, jobDescription).1[k].term == "constructor"
    requires forall j :: 0 <= j < |p.listTerms(resumeText, jobDescription).0| ==>
      p.listTerms(resumeText, jobDescription).0[j].term != "constructor"
    ensures TextSimilarity(p, resumeText, jobDescription).None?
    ensures AdvancedMatch(p, resumeText, jobDescription, requiredSkills).None?
  {
    var (resumeTerms, jobTerms) := p.listTerms(resumeText, jobDescription);
    ReadsInheritedIff(resumeTerms, jobTerms[k].term);
  }

  /** The overlap is a sum over the job's terms: it splits over a
      concatenation of job term lists, NaN when either half is. */
  lemma {:induction false} OverlapAppend(m: map<string, real>, a: Weights, b: Weights, ab: Weights)
    requires forall t :: t in m ==> m[t] >= 0.0
    requires ab == a + b
    ensures Overlap(m, ab).None? <==> Overlap(m, a).None? || Overlap(m, b).None?
    ensures Overlap(m, ab).Some? ==> Overlap(m, ab).value == Overlap(m, a).value + Overlap(m, b).value
  {
    if a != [] {
      var a': Weights := a[1..];
      var a'b: Weights := ab[1..];
      assert a'b == a' + b && ab[0] == a[0];
      OverlapAppend(m, a', b, a'b);
      OverlapCons(m, ab);
      OverlapCons(m, a);
    } else {
      assert ab == b;
    }
  }

  /** One step of the accumulation: the first job term's contribution added
      to the overlap of the rest. */
  lemma OverlapCons(m: map<string, real>, jobTerms: Weights)
    requires forall t :: t in m ==> m[t] >= 0.0
    requires jobTerms != []
    ensures var rest: Weights := jobTerms[1..];
      var item := jobTerms[0];
      Overlap(m, jobTerms) ==
        if ReadsInherited(m, item.term) || Overlap(m, rest).None? then None
        else Some(Contribution(m, item) + Overlap(m, rest).value)
  {
  }

  /** One shared term, not `__proto__`: the similarity is the rounded
      product of its two weights as a percentage when the resume weight is
      non-zero, and 0 otherwise. */
  lemma SharedTermSimilarity(t: string, resumeWeight: real, jobWeight: real)
    requires t != ProtoName && resumeWeight >= 0.0 && jobWeight >= 0.0
    ensures var resumeTerms: Weights := [TermWeight(t, resumeWeight)];
      var jobTerms: Weights := [TermWeight(t, jobWeight)];
      SimilarityFromTerms(resumeTerms, jobTerms)
        == Some(if resumeWeight == 0.0 then 0 else Min(100, Round(resumeWeight * jobWeight * 100.0)))
  {
    var resumeTerms: Weights := [TermWeight(t, resumeWeight)];
    var jobTerms: Weights := [TermWeight(t, jobWeight)];
    var m := WeightMap(resumeTerms);
    assert m == map[t := resumeWeight];
    var c := Contribution(m, jobTerms[0]);
    assert c == if resumeWeight == 0.0 then 0.0 else resumeWeight * jobWeight;
    var rest: Weights := jobTerms[1..];
    assert rest == [];
    OverlapCons(m, jobTerms);
    assert Overlap(m, jobTerms) == Some(c + 0.0);
    if resumeWeight == 0.0 {
      RoundBetween(0.0, 0, 0);
    }
  }

  /** Against no tokens, nothing matches. */
  lemma {:induction false} CountNone(p: Pipeline, skills: seq<string>)
    ensures MatchedCount(p, [], skills) == 0
  {
    if skills != [] {
      CountNone(p, skills[1..]);
    }
  }
}

=== FILE: skills_field.dfy ===
/** The job form's skills field: the free text the recruiter types is split
    on commas, each piece trimmed, and blank pieces dropped, before the job is
    sent to the server. */
module SkillsField {
  import opened Common
  import opened Text

  /** Trims every piece (`map(skill => skill.trim())`). */
  function TrimAll(pieces: seq<string>): (r: seq<string>)
    ensures |r| == |pieces|
    ensures forall k :: 0 <= k < |r| ==> r[k] == Trim(pieces[k])
  {
    if pieces == [] then [] else [Trim(pieces[0])] + TrimAll(pieces[1..])
  }

  lemma {:induction false} TrimAllAppend(a: seq<string>, b: seq<string>)
    ensures TrimAll(a + b) == TrimAll(a) + TrimAll(b)
  {
    if a != [] {
      assert (a + b)[1..] == a[1..] + b;
      TrimAllAppend(a[1..], b);
      calc {
        TrimAll(a + b);
        [Trim(a[0])] + TrimAll(a[1..] + b);
        [Trim(a[0])] + (TrimAll(a[1..]) + TrimAll(b));
        ([Trim(a[0])] + TrimAll(a[1..])) + TrimAll(b);
      }
    }
  }

  predicate NonBlank(s: string) { s != "" }

  /** A well-formed skill entry: non-empty, trimmed, and free of commas. */
  predicate IsSkillEntry(s: string) {
    s != "" && IsTrimmed(s) && ',' !in s
  }

  /** The trim of some comma-separated piece of `input` is `x`. */
  predicate IsTrimmedPiece(input: string, x: string) {
    exists k :: 0 <= k < |Split(input, ',')| && Trim(Split(input, ',')[k]) == x
  }

  /** The skills array the form submits for the text typed into the field. */
  function ParseSkills(input: string): (r: seq<string>)
    ensures forall k :: 0 <= k < |r| ==> IsSkillEntry(r[k])
    ensures |r| <= CountChar(input, ',') + 1
    ensures forall x :: x in r <==> x != "" && IsTrimmedPiece(input, x)
  {
    ParseSkillsFacts(input);
    Entries(input)
  }

  /** The trimmed non-blank pieces, as the parser computes them. */
  function Entries(input: string): seq<string> {
    Filter(TrimAll(Split(input, ',')), NonBlank)
  }

  lemma ParseSkillsFacts(input: string)
    ensures forall k :: 0 <= k < |Entries(input)| ==> IsSkillEntry(Entries(input)[k])
    ensures |Entries(input)| <= CountChar(input, ',') + 1
    ensures forall x :: x in Entries(input) <==> x != "" && IsTrimmedPiece(input, x)
  {
    var pieces := Split(input, ',');
    var trimmed := TrimAll(pieces);
    var r := Entries(input);
    assert |r| <= |trimmed| == |pieces| == CountChar(input, ',') + 1;
    FilterMembers(trimmed, NonBlank);
    ParsedEntriesWellFormed(pieces, trimmed, r);
    forall x
      ensures x in r <==> x != "" && IsTrimmedPiece(input, x)
    {
      ParsedEntryMember(input, x);
    }
  }

  lemma ParsedEntriesWellFormed(pieces: seq<string>, trimmed: seq<string>, r: seq<string>)
    requires forall k :: 0 <= k < |pieces| ==> ',' !in pieces[k]
    requires trimmed == TrimAll(pieces)
    requires forall x :: x in r <==> x in trimmed && NonBlank(x)
    ensures forall k :: 0 <= k < |r| ==> IsSkillEntry(r[k])
  {
    forall k | 0 <= k < |r|
      ensures IsSkillEntry(r[k])
    {
      var x := r[k];
      assert x in r;
      var j :| 0 <= j < |trimmed| && trimmed[j] == x;
      assert ',' !in pieces[j];
    }
  }

  lemma ParsedEntryMember(input: string, x: string)
    ensures x in Entries(input) <==> x != "" && IsTrimmedPiece(input, x)
  {
    var pieces := Split(input, ',');
    var trimmed := TrimAll(pieces);
    FilterMembers(trimmed, NonBlank);
    if x in Entries(input) {
      assert x in trimmed;
      var k :| 0 <= k < |trimmed| && trimmed[k] == x;
      assert Trim(pieces[k]) == x;
    }
    if x != "" && IsTrimmedPiece(input, x) {
      var k :| 0 <= k < |pieces| && Trim(pieces[k]) == x;
      assert trimmed[k] == x;
      assert x in trimmed && NonBlank(x);
    }
  }

  /** The parse of `a,b` is the parse of `a` followed by the parse of `b`:
      entries keep the order in which they were typed. */
  lemma ParseConcat(a: string, b: string)
    ensures ParseSkills(a + "," + b) == ParseSkills(a) + ParseSkills(b)
  {
    SplitConcat(a, b, ',');
    TrimAllAppend(Split(a, ','), Split(b, ','));
    FilterAppend(TrimAll(Split(a, ',')), TrimAll(Split(b, ',')), NonBlank);
  }

  /** Text made only of commas and white space submits no skills at all (and
      the job schema then refuses the job). */
  lemma BlankInputGivesNoSkills(input: string)
    requires forall k :: 0 <= k < |input| ==> input[k] == ',' || IsSpace(input[k])
    ensures ParseSkills(input) == []
  {
    var pieces := Split(input, ',');
    var trimmed := TrimAll(pieces);
    SplitPiecesFromInput(input, ',');
    forall k | 0 <= k < |pieces|
      ensures !NonBlank(trimmed[k])
    {
      BlankPiece(input, pieces[k]);
    }
    assert ParseSkills(input) == Filter(trimmed, NonBlank);
  }

  /** A comma-free piece of such text is blank. */
  lemma BlankPiece(input: string, piece: string)
    requires forall k :: 0 <= k < |input| ==> input[k] == ',' || IsSpace(input[k])
    requires ',' !in piece && forall c :: c in piece ==> c in input
    ensures Trim(piece) == ""
  {
    forall j | 0 <= j < |piece|
      ensures IsSpace(piece[j])
    {
      assert piece[j] in piece;
      assert piece[j] in input;
    }
    TrimEmptyIff(piece);
  }

  /** Joining a list of well-formed entries with commas and parsing it back gives the list. */
  lemma {:induction false} ParseJoin(entries: seq<string>)
    requires forall k :: 0 <= k < |entries| ==> IsSkillEntry(entries[k])
    ensures ParseSkills(Join(entries, ',')) == entries
  {
    if entries == [] {
      assert Split("", ',') == [""];
      assert TrimAll([""]) == [""];
    } else {
      SplitJoin(entries, ',');
      var trimmed := TrimAll(entries);
      assert trimmed == entries;
    }
  }

  /** The submitted skills, joined back with commas, parse to themselves. */
  lemma ParseIdempotent(input: string)
    ensures ParseSkills(Join(ParseSkills(input), ',')) == ParseSkills(input)
  {
    ParseJoin(ParseSkills(input));
  }
}

=== FILE: text.dfy ===
/** String primitives of the JavaScript runtime that the model relies on:
    the white-space class shared by `String.prototype.trim` and the regular
    expression class `\s`, `trim`, ASCII lower-casing, `split` on one
    character, `join`, substring search and decimal digits. */
module Text {

  /** The characters ECMAScript counts as WhiteSpace or LineTerminator. */
  predicate IsSpace(c: char) {
    c == ' ' || c == '\t' || c == '\n' || c == '\r' || c == '\U{000B}' || c == '\U{000C}'
    || c == '\U{00A0}' || c == '\U{1680}' || ('\U{2000}' <= c <= '\U{200A}')
    || c == '\U{2028}' || c == '\U{2029}' || c == '\U{202F}' || c == '\U{205F}'
    || c == '\U{3000}' || c == '\U{FEFF}'
  }

  predicate IsDigit(c: char) { '0' <= c <= '9' }

  predicate IsAsciiLetter(c: char) { 'a' <= c <= 'z' || 'A' <= c <= 'Z' }

  /** True when no character of `s` is white space at either end. */
  predicate IsTrimmed(s: string) {
    s == [] || (!IsSpace(s[0]) && !IsSpace(s[|s| - 1]))
  }

  function TrimStart(s: string): (r: string)
    ensures |r| <= |s| && r == s[|s| - |r|..]
    ensures r == [] || !IsSpace(r[0])
    ensures forall k :: 0 <= k < |s| - |r| ==> IsSpace(s[k])
  {
    if s != [] && IsSpace(s[0]) then TrimStart(s[1..]) else s
  }

  function TrimEnd(s: string): (r: string)
    ensures |r| <= |s| && r == s[..|r|]
    ensures r == [] || !IsSpace(r[|r| - 1])
    ensures forall k :: |r| <= k < |s| ==> IsSpace(s[k])
  {
    if s != [] && IsSpace(s[|s| - 1]) then TrimEnd(s[..|s| - 1]) else s
  }

  /** `String.prototype.trim`: drops white space at both ends. */
  function Trim(s: string): (r: string)
    ensures IsTrimmed(r)
    ensures |r| <= |s|
    ensures forall c :: c in r ==> c in s
    ensures IsTrimmed(s) ==> r == s
    ensures exists i :: TrimmedAt(s, r, i)
  {
    var front := TrimStart(s);
    var t := TrimEnd(front);
    TrimmedInfix(s, front, t);
    SliceMembers(s, |s| - |front|, |s| - |front| + |t|);
    t
  }

  /** A suffix of `s` after white space, cut before white space, is a trimmed
      slice of `s` with only white space around it. */
  lemma TrimmedInfix(s: string, front: string, t: string)
    requires |front| <= |s| && front == s[|s| - |front|..]
    requires front == [] || !IsSpace(front[0])
    requires forall k :: 0 <= k < |s| - |front| ==> IsSpace(s[k])
    requires |t| <= |front| && t == front[..|t|]
    requires t == [] || !IsSpace(t[|t| - 1])
    requires forall k :: |t| <= k < |front| ==> IsSpace(front[k])
    ensures TrimmedAt(s, t, |s| - |front|) && IsTrimmed(t)
  {
    var i := |s| - |front|;
    assert t == s[i..i + |t|];
    forall k | i + |t| <= k < |s|
      ensures IsSpace(s[k])
    {
      assert s[k] == front[k - i];
    }
    if t != [] {
      assert t[0] == front[0];
    }
  }

  /** Every character of a slice is a character of the whole. */
  lemma SliceMembers(s: string, i: int, j: int)
    requires 0 <= i <= j <= |s|
    ensures forall c :: c in s[i..j] ==> c in s
  {
    forall c | c in s[i..j]
      ensures c in s
    {
      var k :| i <= k < j && s[k] == c;
    }
  }

  /** `r` is `s[i..]` cut to length `|r|`, with only white space before and
      after it in `s`. */
  predicate TrimmedAt(s: string, r: string, i: int) {
    0 <= i <= |s| - |r| && r == s[i..i + |r|]
    && (forall k :: 0 <= k < i ==> IsSpace(s[k]))
    && (forall k :: i + |r| <= k < |s| ==> IsSpace(s[k]))
  }

  /** `trim` of a trimmed string padded with white space on both sides is
      that string: the surrounding white space is all it removes. */
  lemma TrimPadded(before: string, t: string, after: string)
    requires forall k :: 0 <= k < |before| ==> IsSpace(before[k])
    requires forall k :: 0 <= k < |after| ==> IsSpace(after[k])
    requires IsTrimmed(t)
    ensures Trim(before + t + after) == t
  {
    var s := before + t + after;
    var r := Trim(s);
    var i :| TrimmedAt(s, r, i);
    PaddedInfix(before, t, after, r, i);
  }

  /** The only trimmed slice of `before + t + after` with only white space
      around it is `t`. */
  lemma PaddedInfix(before: string, t: string, after: string, r: string, i: int)
    requires forall k :: 0 <= k < |before| ==> IsSpace(before[k])
    requires forall k :: 0 <= k < |after| ==> IsSpace(after[k])
    requires IsTrimmed(t) && IsTrimmed(r)
    requires TrimmedAt(before + t + after, r, i)
    ensures r == t
  {
    var s := before + t + after;
    if t == [] {
      assert forall k :: 0 <= k < |s| ==> IsSpace(s[k]);
    } else {
      var j := |before| + |t|;
      assert !IsSpace(s[|before|]) && !IsSpace(s[j - 1]);
      assert r != [] ==> !IsSpace(s[i]) && !IsSpace(s[i + |r| - 1]);
      assert forall k :: 0 <= k < |before| ==> IsSpace(s[k]);
      assert forall k :: j <= k < |s| ==> IsSpace(s[k]);
      assert i == |before| && i + |r| == j;
      assert s[|before|..|before| + |t|] == t;
    }
  }

  /** A trimmed string is empty exactly when the input was all white space. */
  lemma TrimEmptyIff(s: string)
    ensures Trim(s) == [] <==> forall k :: 0 <= k < |s| ==> IsSpace(s[k])
  {
  }

  /** The number of UTF-16 code units of a character: two for one above
      U+FFFF (a surrogate pair), one otherwise. */
  function CodeUnits(c: char): nat {
    if c as int > 0xFFFF then 2 else 1
  }

  /** `String.prototype.length`: the string's length in UTF-16 code units. */
  function Utf16Length(s: string): (n: nat)
    ensures |s| <= n <= 2 * |s|
    ensures n == |s| <==> forall k :: 0 <= k < |s| ==> s[k] as int <= 0xFFFF
  {
    if s == [] then 0 else CodeUnits(s[0]) + Utf16Length(s[1..])
  }

  /** A string of characters above U+FFFF has two code units per character. */
  lemma {:induction false} Utf16LengthAstral(s: string)
    requires forall k :: 0 <= k < |s| ==> s[k] as int > 0xFFFF
    ensures Utf16Length(s) == 2 * |s|
  {
    if s != [] {
      Utf16LengthAstral(s[1..]);
    }
  }

  /** Code units add up over a concatenation. */
  lemma {:induction false} Utf16LengthAppend(a: string, b: string)
    ensures Utf16Length(a + b) == Utf16Length(a) + Utf16Length(b)
  {
    if a == [] {
      assert a + b == b;
    } else {
      assert (a + b)[0] == a[0] && (a + b)[1..] == a[1..] + b;
      Utf16LengthAppend(a[1..], b);
    }
  }

  function LowerChar(c: char): char {
    if 'A' <= c <= 'Z' then (c as int + 32) as char else c
  }

  /** `String.prototype.toLowerCase`, restricted to the ASCII letters. */
  function ToLower(s: string): (r: string)
    ensures |r| == |s|
    ensures forall k :: 0 <= k < |s| ==> r[k] == LowerChar(s[k])
  {
    if s == [] then [] else [LowerChar(s[0])] + ToLower(s[1..])
  }

  /** True when `needle` occurs in `s` at position `i`. */
  predicate OccursAt(s: string, needle: string, i: int) {
    0 <= i && i + |needle| <= |s| && s[i..i + |needle|] == needle
  }

  /** `String.prototype.includes` / an unanchored regular-expression test. */
  predicate Contains(s: string, needle: string) {
    exists i :: 0 <= i <= |s| && OccursAt(s, needle, i)
  }

  /** `s.split(sep)` for a one-character separator: the maximal pieces of `s`
      between occurrences of `sep`; there is always at least one piece. */
  function Split(s: string, sep: char): (r: seq<string>)
    ensures |r| >= 1
    ensures forall k :: 0 <= k < |r| ==> sep !in r[k]
    ensures |r| == 1 + CountChar(s, sep)
  {
    if s == [] then [""]
    else
      var rest := Split(s[1..], sep);
      if s[0] == sep then [""] + rest
      else [[s[0]] + rest[0]] + rest[1..]
  }

  function CountChar(s: string, c: char): nat {
    if s == [] then 0 else (if s[0] == c then 1 else 0) + CountChar(s[1..], c)
  }

  /** `pieces.join(sep)`. */
  function Join(pieces: seq<string>, sep: char): string {
    if pieces == [] then ""
    else if |pieces| == 1 then pieces[0]
    else pieces[0] + [sep] + Join(pieces[1..], sep)
  }

  /** `split` undoes `join` when no piece contains the separator. */
  lemma {:induction false} SplitJoin(pieces: seq<string>, sep: char)
    requires |pieces| >= 1
    requires forall k :: 0 <= k < |pieces| ==> sep !in pieces[k]
    ensures Split(Join(pieces, sep), sep) == pieces
  {
    if |pieces| == 1 {
      SplitNoSep(pieces[0], sep);
    } else {
      SplitJoin(pieces[1..], sep);
      SplitPrefix(pieces[0], [sep] + Join(pieces[1..], sep), sep);
      assert pieces[0] + [sep] + Join(pieces[1..], sep)
        == pieces[0] + ([sep] + Join(pieces[1..], sep));
    }
  }

  /** A string without the separator splits into itself. */
  lemma {:induction false} SplitNoSep(s: string, sep: char)
    requires sep !in s
    ensures Split(s, sep) == [s]
  {
    if s != [] {
      SplitNoSep(s[1..], sep);
      assert [s[0]] + s[1..] == s;
    }
  }

  /** Splitting `a + sep + t`, where `a` has no separator, gives `a` then the pieces of `t`. */
  lemma {:induction false} SplitPrefix(a: string, rest: string, sep: char)
    requires sep !in a
    requires rest != [] && rest[0] == sep
    ensures Split(a + rest, sep) == [a] + Split(rest[1..], sep)
  {
    if a == [] {
      assert a + rest == rest;
    } else {
      assert (a + rest)[1..] == a[1..] + rest;
      SplitPrefix(a[1..], rest, sep);
      assert [a[0]] + a[1..] == a;
    }
  }

  /** Splitting `a + sep + b` gives the pieces of `a` followed by the pieces of `b`. */
  lemma {:induction false} SplitConcat(a: string, b: string, sep: char)
    ensures Split(a + [sep] + b, sep) == Split(a, sep) + Split(b, sep)
  {
    if a == [] {
      assert a + [sep] + b == [sep] + b;
      assert ([sep] + b)[1..] == b;
    } else {
      assert (a + [sep] + b)[1..] == a[1..] + [sep] + b;
      SplitConcat(a[1..], b, sep);
    }
  }

  /** Every character of every piece comes from the split string. */
  lemma {:induction false} SplitPiecesFromInput(s: string, sep: char)
    ensures forall k, c :: 0 <= k < |Split(s, sep)| && c in Split(s, sep)[k] ==> c in s
  {
    if s != [] {
      SplitPiecesFromInput(s[1..], sep);
      var rest := Split(s[1..], sep);
      forall k, c | 0 <= k < |Split(s, sep)| && c in Split(s, sep)[k]
        ensures c in s
      {
        assert forall x :: x in s[1..] ==> x in s;
        if s[0] != sep && k == 0 {
          assert Split(s, sep)[0] == [s[0]] + rest[0];
        }
      }
    }
  }

  /** The decimal value of a string of digits (`parseInt` of a digit run). */
  function DigitsValue(s: string): nat
    requires forall k :: 0 <= k < |s| ==> IsDigit(s[k])
  {
    if s == [] then 0
    else
      var last := s[|s| - 1];
      assert IsDigit(last);
      DigitsValue(s[..|s| - 1]) * 10 + (last as int - '0' as int)
  }

  /** Every character of `s[i..j]` is in the class `p`. */
  predicate AllIn(s: string, i: int, j: int, p: char -> bool)
    requires 0 <= i <= j <= |s|
  {
    forall k :: i <= k < j ==> p(s[k])
  }

  /** The end of the longest run of characters of class `p` starting at `i`
      (what a greedy `[...]*` consumes). */
  function RunEnd(s: string, i: nat, p: char -> bool): (e: nat)
    requires i <= |s|
    ensures i <= e <= |s| && AllIn(s, i, e, p)
    ensures e == |s| || !p(s[e])
    decreases |s| - i
  {
    if i < |s| && p(s[i]) then RunEnd(s, i + 1, p) else i
  }

  /** A run of class characters followed by a character outside the class ends exactly there. */
  lemma {:induction false} RunEndAt(s: string, i: nat, k: nat, p: char -> bool)
    requires i <= k < |s| && AllIn(s, i, k, p) && !p(s[k])
    ensures RunEnd(s, i, p) == k
    decreases k - i
  {
    if i < k {
      RunEndAt(s, i + 1, k, p);
    }
  }

  /** A run reaches at least as far as any stretch of class characters. */
  lemma {:induction false} RunEndAtLeast(s: string, i: nat, k: nat, p: char -> bool)
    requires i <= k <= |s| && AllIn(s, i, k, p)
    ensures RunEnd(s, i, p) >= k
    decreases k - i
  {
    if i < k {
      RunEndAtLeast(s, i + 1, k, p);
    }
  }
}

=== FILE: upload.dfy ===
/** The upload guard in front of the resume handler: the file-type filter
    (an unanchored `pdf|docx|doc` test on the lower-cased extension of the
    original file name and on the raw MIME type) and the size and count
    limits of the multipart parser. */
module Upload {
  import opened Common
  import opened Text

  const RejectMessage := "Only PDF, DOC, and DOCX files are allowed!"

  /** 5 MiB, in bytes. */
  const MaxFileSize: nat := 5 * 1024 * 1024

  /** One file per request. */
  const MaxFiles: nat := 1

  /** `path` with its trailing `/` characters removed. */
  function DropTrailingSlashes(s: string): (r: string)
    ensures |r| <= |s| && r == s[..|r|]
    ensures r == [] || r[|r| - 1] != '/'
    ensures forall k :: |r| <= k < |s| ==> s[k] == '/'
  {
    if s != [] && s[|s| - 1] == '/' then DropTrailingSlashes(s[..|s| - 1]) else s
  }

  /** The part of `s` after its last `/` (all of `s` when it has none). */
  function AfterLastSlash(s: string): (r: string)
    ensures |r| <= |s| && r == s[|s| - |r|..]
    ensures '/' !in r
    ensures |r| < |s| ==> s[|s| - |r| - 1] == '/'
  {
    if s == [] || s[|s| - 1] == '/' then []
    else
      var r := AfterLastSlash(s[..|s| - 1]) + [s[|s| - 1]];
      assert s[..|s| - 1][|s| - |r|..] + [s[|s| - 1]] == s[|s| - |r|..];
      r
  }

  /** `path.basename` for POSIX paths. */
  function BaseName(path: string): (r: string)
    ensures '/' !in r
  {
    AfterLastSlash(DropTrailingSlashes(path))
  }

  /** The position of the last `c` in `s`. */
  function LastIndexOf(s: string, c: char): (r: Option<nat>)
    ensures r.None? <==> c !in s
    ensures r.Some? ==> r.value < |s| && s[r.value] == c && c !in s[r.value + 1..]
  {
    if s == [] then None
    else if s[|s| - 1] == c then Some(|s| - 1)
    else
      var r := LastIndexOf(s[..|s| - 1], c);
      assert s == s[..|s| - 1] + [s[|s| - 1]];
      if r.Some? then
        assert s[r.value + 1..] == s[..|s| - 1][r.value + 1..] + [s[|s| - 1]];
        r
      else
        r
  }

  /** `path.extname` for POSIX paths: from the last `.` of the base name to its
      end, or empty when the base name has no `.`, starts with its only `.`,
      or is `..`. */
  function ExtName(path: string): (r: string)
    ensures r == [] || (r[0] == '.' && '.' !in r[1..] && '/' !in r)
    ensures '.' !in BaseName(path) ==> r == []
  {
    var base := BaseName(path);
    var dot := LastIndexOf(base, '.');
    if dot.None? || dot.value == 0 || base == ".." then []
    else
      ExtensionShape(base, dot.value);
      base[dot.value..]
  }

  lemma ExtensionShape(base: string, d: nat)
    requires d < |base| && base[d] == '.' && '.' !in base[d + 1..] && '/' !in base
    ensures base[d..] != [] && base[d..][0] == '.' && '.' !in base[d..][1..] && '/' !in base[d..]
  {
    assert base[d..][1..] == base[d + 1..];
  }

  /** A plain file name `stem.ext` has the extension `.ext`. */
  lemma ExtNameOfFileName(stem: string, ext: string)
    requires stem != [] && ext != []
    requires '/' !in stem && '/' !in ext && '.' !in ext
    ensures ExtName(stem + "." + ext) == "." + ext
  {
    var name := stem + "." + ext;
    assert BaseName(name) == name by {
      BaseNameOfPlainName(name);
    }
    assert LastIndexOf(name, '.') == Some(|stem|) by {
      LastDotOfFileName(stem, ext);
    }
    assert name != ".." by {
      assert |name| > 2;
    }
    assert name[|stem|..] == "." + ext;
  }

  /** A name with no `/` is its own base name. */
  lemma BaseNameOfPlainName(name: string)
    requires name != [] && '/' !in name
    ensures BaseName(name) == name
  {
    assert name[|name| - 1] in name;
    assert DropTrailingSlashes(name) == name;
    AfterLastSlashWhole(name);
  }

  /** The last `.` of `stem.ext` is the one after the stem when `ext` has none. */
  lemma LastDotOfFileName(stem: string, ext: string)
    requires '.' !in ext
    ensures LastIndexOf(stem + "." + ext, '.') == Some(|stem|)
  {
    var name := stem + "." + ext;
    assert name[|stem|] == '.';
    assert name[|stem| + 1..] == ext;
    LastIndexOfExact(name, '.', |stem|);
  }

  lemma {:induction false} AfterLastSlashWhole(s: string)
    requires '/' !in s
    ensures AfterLastSlash(s) == s
  {
    if s != [] {
      assert s[..|s| - 1] + [s[|s| - 1]] == s;
      AfterLastSlashWhole(s[..|s| - 1]);
    }
  }

  lemma LastIndexOfExact(s: string, c: char, i: nat)
    requires i < |s| && s[i] == c && c !in s[i + 1..]
    ensures LastIndexOf(s, c) == Some(i)
  {
  }

  /** The filter's pattern `/pdf|docx|doc/`, tested without anchors. */
  predicate AcceptedType(s: string) {
    Contains(s, "pdf") || Contains(s, "docx") || Contains(s, "doc")
  }

  /** The `docx` alternative is redundant: anything containing it contains `doc`. */
  lemma AcceptedTypeIsPdfOrDoc(s: string)
    ensures AcceptedType(s) <==> Contains(s, "pdf") || Contains(s, "doc")
  {
    if Contains(s, "docx") {
      var i :| 0 <= i <= |s| && OccursAt(s, "docx", i);
      assert s[i..i + 3] == s[i..i + 4][..3];
      assert OccursAt(s, "doc", i);
    }
  }

  /** `fileFilter`: the file is accepted (`cb(null, true)`) when both the
      lower-cased extension and the MIME type pass the pattern, otherwise it
      is refused with an error. */
  function FileFilter(originalName: string, mimeType: string): (r: Result<bool, string>)
    ensures r.Success? <==> AcceptedType(ToLower(ExtName(originalName))) && AcceptedType(mimeType)
    ensures r.Success? ==> r.value
    ensures r.Failure? ==> r.error == RejectMessage
  {
    if AcceptedType(mimeType) && AcceptedType(ToLower(ExtName(originalName))) then Success(true)
    else Failure(RejectMessage)
  }

  /** A needle whose first character does not occur early enough in `s` is not in `s`. */
  lemma FirstCharAbsent(s: string, needle: string)
    requires needle != [] && |s| >= |needle|
    requires needle[0] !in s[..|s| - |needle| + 1]
    ensures !Contains(s, needle)
  {
  }

  /** A needle with a character that does not occur in `s` is not in `s`. */
  lemma CharAbsent(s: string, needle: string, k: nat)
    requires k < |needle| && needle[k] !in s
    ensures !Contains(s, needle)
  {
  }

  /** A name without any `.` has no extension, so it is refused whatever its MIME type. */
  lemma NoExtensionRejected(originalName: string, mimeType: string)
    requires '.' !in originalName
    ensures FileFilter(originalName, mimeType) == Failure(RejectMessage)
  {
    var base := BaseName(originalName);
    var t := DropTrailingSlashes(originalName);
    assert forall c :: c in base ==> c in t;
    assert forall c :: c in t ==> c in originalName;
    assert ExtName(originalName) == [];
  }

  /** The extension test ignores case: `stem.PDF` sent as `application/pdf` is accepted. */
  lemma UpperCaseExtensionAccepted(stem: string)
    requires stem != [] && '/' !in stem
    ensures FileFilter(stem + ".PDF", "application/pdf") == Success(true)
  {
    assert stem + ".PDF" == stem + "." + "PDF";
    ExtNameOfFileName(stem, "PDF");
    LowerPdf();
    PdfMimeTypeAccepted();
  }

  lemma LowerPdf()
    ensures ToLower(".PDF") == ".pdf"
    ensures AcceptedType(ToLower(".PDF"))
  {
    var r := ToLower(".PDF");
    assert r[1] == LowerChar('P') == 'p';
    assert r[2] == LowerChar('D') == 'd';
    assert r[3] == LowerChar('F') == 'f';
    assert OccursAt(".pdf", "pdf", 1);
  }

  lemma PdfMimeTypeAccepted()
    ensures AcceptedType("application/pdf")
  {
    assert OccursAt("application/pdf", "pdf", 12);
  }

  /** The test is unanchored: a macro-enabled Word file `stem.docm` sent with
      its own MIME type is accepted. */
  lemma MacroDocumentAccepted(stem: string)
    requires stem != [] && '/' !in stem
    ensures FileFilter(stem + ".docm", "application/vnd.ms-word.document.macroEnabled.12") == Success(true)
  {
    assert stem + ".docm" == stem + "." + "docm";
    ExtNameOfFileName(stem, "docm");
    LowerDocmAndPdfx();
    MacroMimeTypeAccepted();
  }

  /** The test is unanchored: any `stem.pdfx` sent as `application/pdf` is accepted. */
  lemma PdfxAccepted(stem: string)
    requires stem != [] && '/' !in stem
    ensures FileFilter(stem + ".pdfx", "application/pdf") == Success(true)
  {
    assert stem + ".pdfx" == stem + "." + "pdfx";
    ExtNameOfFileName(stem, "pdfx");
    LowerDocmAndPdfx();
    PdfMimeTypeAccepted();
  }

  lemma MacroMimeTypeAccepted()
    ensures AcceptedType("application/vnd.ms-word.document.macroEnabled.12")
  {
    var a := "application/vnd.ms-word.";
    var b := "document.macroEnabled.12";
    assert a + b == "application/vnd.ms-word.document.macroEnabled.12";
    assert (a + b)[24..27] == b[..3];
    assert OccursAt(a + b, "doc", 24);
  }

  /** The two unanchored extensions pass the pattern once lower-cased. */
  lemma LowerDocmAndPdfx()
    ensures AcceptedType(ToLower(".docm"))
    ensures AcceptedType(ToLower(".pdfx"))
  {
    var d := ToLower(".docm");
    assert d[1] == 'd' && d[2] == 'o' && d[3] == 'c';
    assert OccursAt(d, "doc", 1);
    var p := ToLower(".pdfx");
    assert p[1] == 'p' && p[2] == 'd' && p[3] == 'f';
    assert OccursAt(p, "pdf", 1);
  }

  /** An image is refused whatever the file is called: `image/` followed by
      any subtype without `pdf` or `doc` in it (`png`, `jpeg`, `svg+xml`, ...). */
  lemma ImageRejected(originalName: string, subtype: string)
    requires !Contains(subtype, "pdf") && !Contains(subtype, "doc")
    ensures FileFilter(originalName, "image/" + subtype) == Failure(RejectMessage)
  {
    NotInPrefix("image/", subtype, "pdf");
    NotInPrefix("image/", subtype, "doc");
    AcceptedTypeIsPdfOrDoc("image/" + subtype);
  }

  /** A needle whose first character is not in `prefix` occurs in
      `prefix + rest` only inside `rest`. */
  lemma NotInPrefix(prefix: string, rest: string, needle: string)
    requires needle != [] && needle[0] !in prefix
    ensures Contains(prefix + rest, needle) ==> Contains(rest, needle)
  {
    var s := prefix + rest;
    if Contains(s, needle) {
      var i :| 0 <= i <= |s| && OccursAt(s, needle, i);
      assert s[i] == needle[0];
      if i >= |prefix| {
        var j := i - |prefix|;
        assert s[i..i + |needle|] == rest[j..j + |needle|];
        assert OccursAt(rest, needle, j);
      }
    }
  }

  /** The registered MIME type of legacy `.doc` files, `application/msword`,
      does not contain `doc`, so a genuine `.doc` upload is refused. */
  lemma LegacyWordMimeTypeRejected(originalName: string)
    ensures FileFilter(originalName, "application/msword").Failure?
  {
    CharAbsent("application/msword", "pdf", 2);
    CharAbsent("application/msword", "docx", 3);
    FirstCharAbsent("application/msword", "doc");
  }

  /** Why the multipart parser aborts a request. */
  datatype LimitError = FileTooLarge | TooManyFiles

  /** The parser's limits over the sizes of the files of one request, in the
      order they arrive: a file beyond the first aborts with `TooManyFiles`,
      a file over 5 MiB with `FileTooLarge`, whichever comes first. */
  function CheckLimits(sizes: seq<nat>): (r: Result<(), LimitError>)
    ensures r.Success? <==> |sizes| <= MaxFiles && forall k :: 0 <= k < |sizes| ==> sizes[k] <= MaxFileSize
    ensures r == Failure(TooManyFiles) ==> |sizes| > MaxFiles
    ensures r == Failure(FileTooLarge) ==> exists k :: 0 <= k < |sizes| && sizes[k] > MaxFileSize
  {
    CheckFrom(sizes, 0)
  }

  function CheckFrom(sizes: seq<nat>, i: nat): (r: Result<(), LimitError>)
    requires i <= |sizes|
    requires i <= MaxFiles && forall k :: 0 <= k < i ==> sizes[k] <= MaxFileSize
    ensures r.Success? <==> |sizes| <= MaxFiles && forall k :: 0 <= k < |sizes| ==> sizes[k] <= MaxFileSize
    ensures r == Failure(TooManyFiles) ==> |sizes| > MaxFiles
    ensures r == Failure(FileTooLarge) ==> exists k :: 0 <= k < |sizes| && sizes[k] > MaxFileSize
    decreases |sizes| - i
  {
    if i == |sizes| then Success(())
    else if i >= MaxFiles then Failure(TooManyFiles)
    else if sizes[i] > MaxFileSize then Failure(FileTooLarge)
    else CheckFrom(sizes, i + 1)
  }

  /** A single file of exactly 5 MiB passes; one byte more does not. */
  lemma SizeLimitBoundary()
    ensures CheckLimits([5242880]) == Success(())
    ensures CheckLimits([5242881]) == Failure(FileTooLarge)
  {
  }
}
